=== FILE: README.md ===
# CalculatorBrain in Dafny

A model of `CalculatorBrain`, the reverse-Polish expression engine behind
the calculator app. The engine keeps a stack of ops (operands, variables,
constants, unary and binary operators), a registry of known operators, a
registry of known constants and a table of variable values. It evaluates the
stack from the top, reports a single error message for the top operation,
prints the stack as one or more infix expressions with parentheses chosen by
precedence, and serialises the stack to a list of tokens and back.

The model is functional. The engine state is an immutable record
(`Brain.Brain`). Every push, operator and undo returns the new state
together with the re-evaluated result, which is what the Swift methods
return. `clean` and the `program` setter return only the new state, as their
Swift counterparts return nothing. The evaluator,
the error-reporting evaluator and the describer are pure recursive functions
over `seq<Op<N>>`. Each returns its result together with the unconsumed part
of the stack.

Numbers are abstract. `Numbers.Domain<N>` is a record of function values
standing for Swift's `Double` operators, `sqrt`, `sin`, `cos`, the
`== 0` and `< 0` tests, the value of pi, string interpolation (`show`) and
the number formatter (`parse`). Every property below holds for any such
domain. `Examples.IntDomain` is an integer instance used for the worked
examples. An operator carries a kind tag (`Ops.UnaryKind`, `Ops.BinaryKind`)
in place of the Swift closures. `Ops.ApplyUnary`, `Ops.ApplyBinary`,
`Ops.UnaryCheck` and `Ops.BinaryCheck` give each kind its function and its
error check.

`Expressions` is an independent reference semantics. It works on expression
trees, with an infix value (`left − right`, `left ÷ right`) and an infix
rendering by the precedence rules. Its lemmas show that the stack engine, run
on the reverse-Polish code of a tree, computes that value and that rendering
and consumes exactly that code.

Modules, one per file: `Options`, `Numbers`, `Text`, `Ops` (op type and
registries), `Evaluator`, `ErrorReport`, `Describer`, `Brain` (state and
mutation API), `Program` (the `program` property and `descriptionOfProgram`),
`Expressions`, `Examples`.

Behaviour of the code worth knowing; the model follows the code as written:

- When evaluation fails at a unary, binary or unbound-variable op, `evaluate`
  returns the stack it was given (line 192). It does not return a partially
  consumed remainder.
- `evaluateAndReportErrors` gives no message when a unary operator has no
  operand value (it falls through to line 342). So `[√]` and `[x, sin]` with
  `x` unbound both show "?".
- `evaluateAndReportErrors` evaluates operands with the plain evaluator
  (lines 316, 323, 325). A domain error below the top op is therefore never
  reported. A missing variable below it never gives "(x=❓)": under a binary
  operator it surfaces as "op1❓" or "op2❓" (so `x 1 +` with `x` unbound
  reports "op2❓"), and under a unary one nothing is reported.
- `addParentheseToExpression` leaves a text alone when its first character is
  "(" and its last is ")" (line 285). It does not check that the two match,
  so `5 1 2 + 3 4 + × ÷` is described as `5÷(1+2)×(3+4)`.
- The binary minus is registered as "−" (U+2212, line 81). The ASCII "-" is
  the unary sign operator (line 85).

## Model

| member | source | states |
|---|---|---|
| `Ops.KnownOperators` | NewCalculator/CalculatorBrain.swift:74-86 | the initializer registers exactly ×, ÷, +, −, √, sin, cos and the sign -, each stored under its own description. ×, ÷, + and − are the binary ones, with kinds times, divide, plus, minus and precedences 2, 2, 1, 1. √, sin and cos are unary with precedence 0, and the sign - is unary negation with precedence −1 |
| `Ops.KnownConstants` | NewCalculator/CalculatorBrain.swift:87 | the constant registry holds only π, a precedence-0 constant with the domain's pi value, stored under its own name |
| `Ops.Description` | NewCalculator/CalculatorBrain.swift:52-60 | an operand's text is its number's interpolation; any other op's text is its symbol |
| `Ops.ApplyBinary` | NewCalculator/CalculatorBrain.swift:78-81 | × and + apply to (op1, op2); − is op2 − op1 and ÷ is op2 ÷ op1, op1 being the operand nearer the top |
| `Ops.ApplyUnary` | NewCalculator/CalculatorBrain.swift:82-85 | √, sin and cos apply the domain's functions; the sign is 0 − x |
| `Ops.UnaryCheck` | NewCalculator/CalculatorBrain.swift:82 | a unary check yields a message exactly for a square root of a negative number, and that message is "❌ √(n>0)" |
| `Ops.BinaryCheck` | NewCalculator/CalculatorBrain.swift:79 | a binary check yields a message exactly for a division whose op1 (the divisor) is zero, and that message is "❌ dividend" |
| `Evaluator.Evaluate` | NewCalculator/CalculatorBrain.swift:163-193 | the empty stack gives no result and an empty remainder. A failed evaluation returns the input stack unchanged. A successful one returns a strict prefix of it |
| `Evaluator.LeafConsumesOne` | NewCalculator/CalculatorBrain.swift:168-190 | an operand or constant on top yields its value and consumes exactly that one op |
| `Evaluator.EvaluateFrame` | NewCalculator/CalculatorBrain.swift:163-193 | once the top expression evaluates, extra ops placed below it change only the remainder, never the result |
| `Evaluator.EvaluateBinaryStep` | NewCalculator/CalculatorBrain.swift:176-182 | a binary operator on top evaluates the stack below it for op1, then what op1 left for op2; it yields its function of (op1, op2) and what op2 left when both succeed, and otherwise fails leaving the whole stack |
| `Evaluator.EvaluateBinaryFromParts` | NewCalculator/CalculatorBrain.swift:176-182 | the same step when op1's code sits on op2's code: the result is the function of (op1, op2) over what lay below both, or a failure leaving the whole stack when either operand fails |
| `Evaluator.BinaryOperandOrder` | NewCalculator/CalculatorBrain.swift:176-182 | for `a b op` the operator gets op1 = b (nearer the top) and op2 = a. So − computes a − b, ÷ computes a ÷ b, and the remainder is what lay below |
| `ErrorReport.EvaluateAndReportErrors` | NewCalculator/CalculatorBrain.swift:307-343 | the reported result always equals the plain evaluator's result. The empty stack gives no result and no message. The remainder is a prefix of the input |
| `ErrorReport.ReportErrors` | NewCalculator/CalculatorBrain.swift:301-305 | the text is the message if there is one, else the plain evaluation's value as text, else "?". The empty stack gives "?" |
| `ErrorReport.UnboundMessage` | NewCalculator/CalculatorBrain.swift:335-336 | the message for an unbound variable s is "(" then s then "=❓)", so it starts with a parenthesis and is four characters longer than s |
| `ErrorReport.UnboundVariableReported` | NewCalculator/CalculatorBrain.swift:332-337 | the message is "(s=❓)" if and only if the top op is the variable s and s has no value |
| `ErrorReport.FirstOperandReported` | NewCalculator/CalculatorBrain.swift:322-331 | the message is "op1❓" if and only if a binary operator is on top and the ops below it do not evaluate |
| `ErrorReport.SecondOperandReported` | NewCalculator/CalculatorBrain.swift:322-330 | the message is "op2❓" if and only if a binary operator is on top, its first operand evaluates and its second does not |
| `ErrorReport.DivisionByZeroReported` | NewCalculator/CalculatorBrain.swift:322-329 | the message is "❌ dividend" if and only if a division is on top, both operands evaluate and op1 is zero |
| `ErrorReport.NegativeRootReported` | NewCalculator/CalculatorBrain.swift:315-321 | the message is "❌ √(n>0)" if and only if a square root is on top and its operand evaluates to a negative number |
| `ErrorReport.MessageAndResult` | NewCalculator/CalculatorBrain.swift:307-343 | when there is a message, a value comes with it exactly for the two domain errors. Missing operands and variables give no value |
| `ErrorReport.SilentFailure` | NewCalculator/CalculatorBrain.swift:307-342 | no result and no message happen together exactly for the empty stack or a unary operator on top whose operand fails |
| `ErrorReport.BuriedDivisionByZeroUnreported` | NewCalculator/CalculatorBrain.swift:322-329 | `a 0 ÷ c +` reports nothing and yields c + a÷0, while `a 0 ÷` alone reports "❌ dividend". Only the top op is checked |
| `ErrorReport.BuriedUnboundVariableUnreported` | NewCalculator/CalculatorBrain.swift:315-321 | `x sin` with x unbound gives no result and no message and shows "?", while `x` alone shows "(x=❓)" |
| `Describer.AddParentheses` | NewCalculator/CalculatorBrain.swift:283-289 | the result always starts with "(" and ends with ")". It equals the input exactly when the input already did. Otherwise it is the input with one character added at each end |
| `Describer.AddParenthesesIdempotent` | NewCalculator/CalculatorBrain.swift:283-289 | wrapping twice gives the same text as wrapping once |
| `Describer.StripZeroFraction` | NewCalculator/CalculatorBrain.swift:238-241 | operand text ending in ".0" loses exactly those two characters. Any other text is unchanged |
| `Describer.Describe` | NewCalculator/CalculatorBrain.swift:230-281 | the empty stack gives no text and precedence 0. A non-empty stack always yields text and consumes at least one op, even with missing operands. The reported precedence is the top op's own |
| `Describer.DescribeBinaryStep` | NewCalculator/CalculatorBrain.swift:259-275 | a binary operator on top describes the stack below it for the nearer operand, then what that left for the farther one, "?" standing for a missing one; its precedence is the operator's and it leaves what the farther operand left |
| `Describer.BinaryOverComplete` | NewCalculator/CalculatorBrain.swift:259-275 | over a stack that describes completely as one expression t, a binary operator renders as "?", its symbol, then t, with t wrapped when its precedence is not 0 |
| `Describer.MissingSecondText` | NewCalculator/CalculatorBrain.swift:270-274 | a missing farther operand "?" of precedence 0 is never wrapped |
| `Describer.DescribeLeavesPrefix` | NewCalculator/CalculatorBrain.swift:230-281 | what the describer leaves over is always a bottom part of the stack it was given: it only ever removes ops from the top |
| `Describer.MissingOperandsRenderAsQuestionMarks` | NewCalculator/CalculatorBrain.swift:243-268 | a lone operator renders each missing operand as "?": "√(?)", "-?", "?+?" |
| `Describer.DescribeConsumesLikeEvaluate` | NewCalculator/CalculatorBrain.swift:230-281 | whenever the evaluator finds a value, the describer consumes exactly the same ops |
| `Describer.Pieces` | NewCalculator/CalculatorBrain.swift:200-214 | a stack yields no more pieces than ops, and no pieces exactly when it is empty |
| `Describer.DescribeStack` | NewCalculator/CalculatorBrain.swift:200-214 | the driver loop (append the first piece, insert every later one at the front, stop when nothing remains) terminates and returns the pieces bottom expression first |
| `Describer.StackDescription` | NewCalculator/CalculatorBrain.swift:69-71 | the empty stack has the empty description. Otherwise the description starts with the first piece, the bottom (first keyed-in) expression |
| `Text.Join` | NewCalculator/CalculatorBrain.swift:69-71 | joining no pieces gives "", one piece gives that piece, and otherwise the text starts with the first piece |
| `Describer.DescribeRespectsKeys` | NewCalculator/CalculatorBrain.swift:230-281 | the description depends only on each op's text, arity and precedence |
| `Describer.PiecesRespectKeys` | NewCalculator/CalculatorBrain.swift:200-214 | stacks that agree op by op on text, arity and precedence give the same pieces |
| `Brain.Init` | NewCalculator/CalculatorBrain.swift:74-88 | a new engine has an empty stack, no variables and the built-in registries, and satisfies the engine invariant |
| `Brain.EvaluateTop` | NewCalculator/CalculatorBrain.swift:142-146 | the empty stack evaluates to nothing |
| `Brain.Push` | NewCalculator/CalculatorBrain.swift:91-116 | the step all pushes share: exactly the op is appended, nothing else changes, and the result is the evaluation of the new stack |
| `Brain.PushOperand` | NewCalculator/CalculatorBrain.swift:91-94 | appends exactly the operand (precedence 0) and changes nothing else. The result is the pushed number |
| `Brain.PushVariable` | NewCalculator/CalculatorBrain.swift:97-100 | appends exactly the variable and changes nothing else. The result is the variable's value, and there is none if it is unbound |
| `Brain.PushConstant` | NewCalculator/CalculatorBrain.swift:103-106 | appends exactly the constant and changes nothing else. The result is its value |
| `Brain.PerformOperation` | NewCalculator/CalculatorBrain.swift:109-116 | a known symbol appends its registered operator. An unknown symbol leaves the state unchanged. Either way the result is the evaluation of the resulting stack |
| `Brain.Undo` | NewCalculator/CalculatorBrain.swift:135-140 | removes exactly the top op, does nothing on an empty stack, and returns the new stack's evaluation |
| `Brain.Clean` | NewCalculator/CalculatorBrain.swift:129-132 | empties the stack and the variable table and keeps both registries |
| `Brain.DescriptionOf` | NewCalculator/CalculatorBrain.swift:69-71 | the engine's description: "" for the empty stack, and otherwise a text that starts with the first piece, the bottom (first keyed-in) expression |
| `Brain.ReportErrorsOf` | NewCalculator/CalculatorBrain.swift:301-305 | the engine's error report: "?" for the empty stack, and the message whenever the top operation reports one |
| `Brain.UndoAfterPush` | NewCalculator/CalculatorBrain.swift:135-140 | undo right after a push restores the previous state and its evaluation |
| `Brain.UnknownOperatorIsNoOp` | NewCalculator/CalculatorBrain.swift:109-116 | on an engine with the built-in registry, any name outside the eight operator symbols changes neither the stack nor the result |
| `Brain.CleanResets` | NewCalculator/CalculatorBrain.swift:129-132 | after clean nothing evaluates, the description is "" and the error report is "?". The state equals a new engine apart from its registries |
| `Brain.PushesKeepValid` | NewCalculator/CalculatorBrain.swift:91-106 | the three pushes keep the engine invariant |
| `Brain.PerformOperationKeepsValid` | NewCalculator/CalculatorBrain.swift:109-116 | applying an operator keeps the engine invariant, so operators on the stack are always registry entries |
| `Brain.UndoAndCleanKeepValid` | NewCalculator/CalculatorBrain.swift:129-140 | undo and clean keep the engine invariant |
| `Program.GetProgram` | NewCalculator/CalculatorBrain.swift:16-18 | the getter yields one token per op, in stack order, and each token is that op's description |
| `Program.SetProgram` | NewCalculator/CalculatorBrain.swift:19-35 | a list that is not of strings changes nothing. Otherwise the new stack has exactly one op per token, op i is token i resolved, and nothing but the stack changes |
| `Program.ResolveToken` | NewCalculator/CalculatorBrain.swift:23-31 | a token resolves, in this order, to its registered operator, to an operand of precedence 0 holding the parsed number, to its registered constant, and otherwise to a variable of precedence 0 named by the token |
| `Program.ResolveTokenFaithful` | NewCalculator/CalculatorBrain.swift:22-31 | the op built for a token (operator, then numeral, then constant, then variable) has that token as its description exactly when the token is an operator name, not a numeral, or a numeral whose value prints back to the same text |
| `Program.SetProgramKeepsValid` | NewCalculator/CalculatorBrain.swift:19-35 | loading a program keeps the engine invariant |
| `Program.SetThenGet` | NewCalculator/CalculatorBrain.swift:15-35 | setting a token list and reading it back returns the same list if and only if every token is stable in that sense |
| `Program.GetSetGet` | NewCalculator/CalculatorBrain.swift:15-35 | get, set, get equals get whenever every token of the program is stable |
| `Program.PortableRoundTrip` | NewCalculator/CalculatorBrain.swift:15-35 | get, set, get equals get when numbers print and parse back to the same text, and no variable or constant name is an operator symbol or a numeral |
| `Program.DescriptionOfProgram` | NewCalculator/CalculatorBrain.swift:292-297 | a list that is not of strings, or the empty list, describes as "" |
| `Program.ProgramCarriesDescription` | NewCalculator/CalculatorBrain.swift:292-297 | handing such a portable program to a newly built engine reproduces the original engine's description |
| `Expressions.EvaluateCompiled` | NewCalculator/CalculatorBrain.swift:163-193 | on the reverse-Polish code of a tree, the evaluator yields the tree's infix value (left − right, left ÷ right) and consumes exactly that code. Where the value is undefined it fails and returns the stack untouched |
| `Expressions.DescribeCompiled` | NewCalculator/CalculatorBrain.swift:230-281 | on the code of a tree, the describer yields the tree's infix rendering and precedence and consumes exactly that code. The right operand is wrapped when its precedence is not 0. The left operand is wrapped when the operator binds tighter and its precedence is not 0. A unary operator renders as sym(x), or as sym followed by x when its precedence is negative |
| `Expressions.MissingSecondOperand` | NewCalculator/CalculatorBrain.swift:259-275 | a binary operator over one complete expression e renders its farther operand as "?": the text is "?", the symbol, then e's rendering, wrapped when e's precedence is not 0 |
| `Expressions.PiecesOfCompiled` | NewCalculator/CalculatorBrain.swift:200-214 | expressions keyed in back to back are described one piece per expression, in the order they were keyed in |
| `Expressions.DescriptionOfCompiled` | NewCalculator/CalculatorBrain.swift:200-214 | the description of back-to-back expressions is their renderings joined with ", " |
| `Examples.EvaluateExample` | NewCalculator/CalculatorBrain.swift:151-158 | `5 6 + 4 ×` evaluates to 44 and consumes the whole stack |
| `Examples.OperandOrderExample` | NewCalculator/CalculatorBrain.swift:78-81 | `7 2 −` is 5 and `8 2 ÷` is 4 |
| `Examples.ProductOfSumExample` | NewCalculator/CalculatorBrain.swift:218-219 | `3 4 5 + ×` describes as "3×(4+5)" |
| `Examples.DifferenceOfSumExample` | NewCalculator/CalculatorBrain.swift:225 | `1 2 3 + −` describes as "1−(2+3)" |
| `Examples.SumOfSumExample` | NewCalculator/CalculatorBrain.swift:226 | `1 2 3 + +` describes as "1+(2+3)" |
| `Examples.LeftNestedExample` | NewCalculator/CalculatorBrain.swift:227 | `1 2 + 3 + 4 ×` describes as "(1+2+3)×4" |
| `Examples.UncheckedParenthesesExample` | NewCalculator/CalculatorBrain.swift:268-274 | `1 2 + 3 4 + ×` describes as "(1+2)×(3+4)", a text that starts with "(" and ends with ")" but is not one parenthesized group |
| `Examples.UncheckedDivisorExample` | NewCalculator/CalculatorBrain.swift:268-274 | `5 1 2 + 3 4 + × ÷` is described as "5÷(1+2)×(3+4)": the divisor "(1+2)×(3+4)" counts as already wrapped, so it gets no new parentheses |
| `Examples.ProductCountsAsWrapped` | NewCalculator/CalculatorBrain.swift:283-289 | "(1+2)×(3+4)" starts with "(" and ends with ")", so wrapping leaves it unchanged |
| `Examples.TwoExpressionsExample` | NewCalculator/CalculatorBrain.swift:200-214 | `3 4 + 5 6 ×` describes as "3+4, 5×6" |
| `Examples.UnaryExamples` | NewCalculator/CalculatorBrain.swift:249-256 | `5 -` describes as "-5" and `5 √` as "√(5)" |
| `Examples.MissingOperandExample` | NewCalculator/CalculatorBrain.swift:259-275 | `5 +` describes as "?+5" |
| `Examples.ErrorExamples` | NewCalculator/CalculatorBrain.swift:301-305 | `5 0 ÷` shows "❌ dividend" and `-4 √` shows "❌ √(n>0)" |
| `Examples.UnboundOperandExample` | NewCalculator/CalculatorBrain.swift:322-331 | `x 1 +` with x unbound reports "op2❓", not "(x=❓)": the variable is op2 and is resolved by the plain evaluator |
| `Examples.SessionExample` | NewCalculator/CalculatorBrain.swift:91-140 | a session on a new engine: 4, 0, ÷ reports the division message. Undo restores the two-operand stack. An unknown operator changes nothing. The result 0 after ÷ is the integer instance's stand-in for division by zero; Swift's Double division gives an infinity there |
| `Examples.DivideSession` | NewCalculator/CalculatorBrain.swift:108-116 | on the stack 4, 0 the operator "÷" is pushed and the error report gives the dividend message. The result 0 comes from the integer instance, whose division gives 0 for a zero divisor; Swift's Double division gives an infinity |
| `Examples.ExampleOperatorsAreRegistered` | NewCalculator/CalculatorBrain.swift:78-85 | the operator constants the examples push are exactly the registry's entries for ×, ÷, +, −, √ and the sign - |

## Left out

- Double arithmetic, `sqrt`, `sin`, `cos`, the value of `M_PI` and the exact text of `"\(x)"` are fields of `Numbers.Domain` and are not interpreted. Of the number text, only the ".0" stripping is modelled.
- `NSNumberFormatter().numberFromString` is the domain's `parse`, a partial function from text to number that is not interpreted.
- The one live `println` call (line 113, for an unknown operator) is left out; it has no effect on state. The other `println` lines (144, 212, 295, 303) and the `learnNewUnaryOperation` / `learnNewBinaryOperation` hooks (lines 118-126) are commented out in the source.
- The third field of `Op.Variable` (an optional error text, line 49) is bound at line 332 but never used: the unbound-variable message is built from the symbol at line 336. The model's `Variable` has no such field.
- `PropertyList` is `AnyObject` in the source. The model distinguishes only an array of strings from anything else, which is the only distinction the setter makes.
- The engine is a class with mutable fields in the source. The model is an immutable record, and each mutation returns the new record. The UI writes `variableValues` directly; in the model that is a record update.
- Swift strings compare by grapheme cluster. The model's strings are sequences of Unicode scalar values, which gives the same results for the ASCII and single-scalar symbols used here.
- Recursion depth is unbounded in the model. The source could exhaust the call stack on very deep stacks.
- Program.ProgramCarriesDescription: covers the description only. Equal evaluation of a handed-over program is not proved, because a number that does not print back exactly, or an ad hoc constant re-read as a variable, can change its value.
- NewCalculator/CalculatorViewController.swift, NewCalculator/GraphView.swift and NewCalculator/GraphViewController.swift are user-interface code (typing state, drawing, gestures, coordinate transforms) and are not part of this model.

=== FILE: brain.dfy ===
/** The engine state `CalculatorBrain` and its public operations.

    Every push, operator and undo returns the new state together with the
    result of re-evaluating the whole stack, which is what the source's
    methods return; `clean` returns only the new state. The state also holds
    the two registries, which the initializer fills and nothing changes
    afterwards. */
module Brain {
  import opened Options
  import opened Numbers
  import opened Text
  import opened Ops
  import opened Evaluator
  import opened ErrorReport
  import opened Describer

  datatype Brain<N> = Brain(
    opStack: seq<Op<N>>,
    knownOps: map<string, Op<N>>,
    knownCons: map<string, Op<N>>,
    /** Written directly by the user interface (the value bound to "m"). */
    variableValues: map<string, N>
  )

  /** The new state after a push, an operator or an undo, and the re-evaluated result. */
  datatype Step<N> = Step(brain: Brain<N>, result: Option<N>)

  /** A stack op as the public operations create it: leaves have precedence
      0, and operators are the registry's own entries. */
  ghost predicate Registered<N>(b: Brain<N>, op: Op<N>) {
    if IsOperator(op) then op.symbol in b.knownOps && b.knownOps[op.symbol] == op
    else op.precedence == 0
  }

  /** The engine invariant: registries keyed by description, holding operators
      and precedence-0 constants respectively, and every op on the stack
      registered. */
  ghost predicate Valid<N>(d: Domain<N>, b: Brain<N>) {
    && WellKeyed(d, b.knownOps)
    && (forall s :: s in b.knownOps ==> IsOperator(b.knownOps[s]))
    && WellKeyed(d, b.knownCons)
    && (forall s :: s in b.knownCons ==> b.knownCons[s].Constant? && b.knownCons[s].precedence == 0)
    && (forall i :: 0 <= i < |b.opStack| ==> Registered(b, b.opStack[i]))
  }

  /** `init()`: empty stack and variables, the built-in registries. */
  function Init<N>(d: Domain<N>): (b: Brain<N>)
    ensures Valid(d, b)
    ensures b.opStack == [] && b.variableValues == map[]
    ensures b.knownOps.Keys == OperatorSymbols && b.knownCons.Keys == {"π"}
  {
    Brain([], KnownOperators(d), KnownConstants(d), map[])
  }

  /** `evaluate()`: the value of the expression on top of the whole stack. */
  function EvaluateTop<N>(d: Domain<N>, b: Brain<N>): (r: Option<N>)
    ensures b.opStack == [] ==> r == None
  {
    Evaluate(d, b.variableValues, b.opStack).result
  }

  /** Pushes one op and re-evaluates. */
  function Push<N>(d: Domain<N>, b: Brain<N>, op: Op<N>): (r: Step<N>)
    ensures r.brain.opStack == b.opStack + [op]
    ensures r.brain.(opStack := b.opStack) == b
    ensures r.result == EvaluateTop(d, r.brain)
  {
    var b' := b.(opStack := b.opStack + [op]);
    Step(b', EvaluateTop(d, b'))
  }

  /** `pushOperand(Double)`: the result is the pushed number itself. */
  function PushOperand<N>(d: Domain<N>, b: Brain<N>, x: N): (r: Step<N>)
    ensures r.brain.opStack == b.opStack + [Operand(x, 0)]
    ensures r.brain.(opStack := b.opStack) == b
    ensures r.result == Some(x)
  {
    Push(d, b, Operand(x, 0))
  }

  /** `pushOperand(String)`: pushes a variable; the result is its bound value,
      or none when it is unbound. */
  function PushVariable<N>(d: Domain<N>, b: Brain<N>, symbol: string): (r: Step<N>)
    ensures r.brain.opStack == b.opStack + [Variable(symbol, 0)]
    ensures r.brain.(opStack := b.opStack) == b
    ensures r.result.Some? <==> symbol in b.variableValues
    ensures r.result.Some? ==> r.result.value == b.variableValues[symbol]
  {
    Push(d, b, Variable(symbol, 0))
  }

  /** `pushConstant`: pushes a named constant; the result is its value. */
  function PushConstant<N>(d: Domain<N>, b: Brain<N>, symbol: string, value: N): (r: Step<N>)
    ensures r.brain.opStack == b.opStack + [Constant(symbol, value, 0)]
    ensures r.brain.(opStack := b.opStack) == b
    ensures r.result == Some(value)
  {
    Push(d, b, Constant(symbol, value, 0))
  }

  /** `performOperation`: pushes the registered operator of that name; an
      unknown name leaves the state unchanged (the source only logs it). */
  function PerformOperation<N>(d: Domain<N>, b: Brain<N>, symbol: string): (r: Step<N>)
    ensures symbol in b.knownOps ==>
              r.brain.opStack == b.opStack + [b.knownOps[symbol]]
    ensures symbol !in b.knownOps ==> r.brain == b && r.result == EvaluateTop(d, b)
    ensures r.brain.(opStack := b.opStack) == b
    ensures r.result == EvaluateTop(d, r.brain)
  {
    if symbol in b.knownOps then Push(d, b, b.knownOps[symbol])
    else Step(b, EvaluateTop(d, b))
  }

  /** `undo`: removes the top op, if any, and re-evaluates. */
  function Undo<N>(d: Domain<N>, b: Brain<N>): (r: Step<N>)
    ensures b.opStack != [] ==> r.brain.opStack + [Top(b.opStack)] == b.opStack
    ensures b.opStack == [] ==> r.brain == b
    ensures r.brain.(opStack := b.opStack) == b
    ensures r.result == Evaluate(d, b.variableValues, r.brain.opStack).result
  {
    var b' := if b.opStack != [] then b.(opStack := Below(b.opStack)) else b;
    Step(b', EvaluateTop(d, b'))
  }

  /** `clean`: empties the stack and forgets every variable. */
  function Clean<N>(b: Brain<N>): (r: Brain<N>)
    ensures r.opStack == [] && r.variableValues == map[]
    ensures r.knownOps == b.knownOps && r.knownCons == b.knownCons
  {
    b.(opStack := [], variableValues := map[])
  }

  /** `description`. */
  function DescriptionOf<N>(d: Domain<N>, b: Brain<N>): (text: string)
    ensures b.opStack == [] ==> text == ""
    ensures b.opStack != [] ==> HasPrefix(text, Pieces(d, b.opStack)[0])
  {
    StackDescription(d, b.opStack)
  }

  /** `evaluateAndReportErrors()` on the whole stack. */
  function ReportErrorsOf<N>(d: Domain<N>, b: Brain<N>): (text: string)
    ensures b.opStack == [] ==> text == "?"
    ensures EvaluateAndReportErrors(d, b.variableValues, b.opStack).message.Some? ==>
              text == EvaluateAndReportErrors(d, b.variableValues, b.opStack).message.value
  {
    ReportErrors(d, b.variableValues, b.opStack)
  }

  // ---------------------------------------------------------------------
  // Properties of the mutation API
  // ---------------------------------------------------------------------

  /** Undo is the inverse of a push: the state and the result are restored. */
  lemma UndoAfterPush<N>(d: Domain<N>, b: Brain<N>, op: Op<N>)
    ensures Undo(d, Push(d, b, op).brain) == Step(b, EvaluateTop(d, b))
  {
    assert Below(b.opStack + [op]) == b.opStack;
  }

  /** An unknown operator name changes neither the stack nor the result. */
  lemma UnknownOperatorIsNoOp<N>(d: Domain<N>, b: Brain<N>, symbol: string)
    requires Valid(d, b) && b.knownOps.Keys == OperatorSymbols
    requires symbol !in OperatorSymbols
    ensures PerformOperation(d, b, symbol) == Step(b, EvaluateTop(d, b))
  {
  }

  /** After `clean` nothing evaluates, the description is empty and the
      error report is "?". */
  lemma CleanResets<N>(d: Domain<N>, b: Brain<N>)
    ensures EvaluateTop(d, Clean(b)) == None
    ensures DescriptionOf(d, Clean(b)) == ""
    ensures ReportErrorsOf(d, Clean(b)) == "?"
    ensures Clean(b) == Init(d).(knownOps := b.knownOps, knownCons := b.knownCons)
  {
  }

  /** Pushing a registered op keeps the engine invariant. */
  lemma PushKeepsValid<N>(d: Domain<N>, b: Brain<N>, op: Op<N>)
    requires Valid(d, b) && Registered(b, op)
    ensures Valid(d, Push(d, b, op).brain)
  {
    var b' := Push(d, b, op).brain;
    forall i | 0 <= i < |b'.opStack|
      ensures Registered(b', b'.opStack[i])
    {
      if i < |b.opStack| { assert b'.opStack[i] == b.opStack[i]; }
    }
  }

  /** The three pushes keep the engine invariant. */
  lemma PushesKeepValid<N>(d: Domain<N>, b: Brain<N>, x: N, name: string)
    requires Valid(d, b)
    ensures Valid(d, PushOperand(d, b, x).brain)
    ensures Valid(d, PushVariable(d, b, name).brain)
    ensures Valid(d, PushConstant(d, b, name, x).brain)
  {
    PushKeepsValid(d, b, Operand(x, 0));
    PushKeepsValid(d, b, Variable(name, 0));
    PushKeepsValid(d, b, Constant(name, x, 0));
  }

  lemma PerformOperationKeepsValid<N>(d: Domain<N>, b: Brain<N>, name: string)
    requires Valid(d, b)
    ensures Valid(d, PerformOperation(d, b, name).brain)
  {
    if name in b.knownOps {
      assert Description(d, b.knownOps[name]) == name;
      PushKeepsValid(d, b, b.knownOps[name]);
    }
  }

  lemma UndoAndCleanKeepValid<N>(d: Domain<N>, b: Brain<N>)
    requires Valid(d, b)
    ensures Valid(d, Undo(d, b).brain)
    ensures Valid(d, Clean(b))
  {
    if b.opStack != [] {
      var b' := Undo(d, b).brain;
      forall i | 0 <= i < |b'.opStack|
        ensures Registered(b', b'.opStack[i])
      {
        assert b'.opStack[i] == b.opStack[i];
      }
    }
  }
}

=== FILE: describer.dfy ===
/** The infix describer `describeOpStack`.

    The recursive describer renders the expression on top of the stack and
    returns the ops below it, like the evaluator; a missing operand renders
    as "?" instead of failing, so it always consumes at least one op of a
    non-empty stack. The driver calls it until the stack is used up and
    lists the pieces in program order; the engine's `description` joins
    them with ", ". */
module Describer {
  import opened Options
  import opened Numbers
  import opened Text
  import opened Ops
  import opened Evaluator

  datatype Desc<N> = Desc(text: Option<string>, precedence: int, remaining: seq<Op<N>>)

  /** True when the text already starts with "(" and ends with ")". */
  predicate Wrapped(s: string) {
    HasPrefix(s, "(") && HasSuffix(s, ")")
  }

  /** `addParentheseToExpression`: wraps the text in parentheses unless it
      already starts with "(" and ends with ")". It does not check that those
      two characters match each other. */
  function AddParentheses(exp: string): (r: string)
    ensures Wrapped(r)
    ensures r == exp <==> Wrapped(exp)
    ensures !Wrapped(exp) ==> |r| == |exp| + 2 && r[1..|r| - 1] == exp
  {
    if !Wrapped(exp) then "(" + exp + ")" else exp
  }

  /** Wrapping twice is wrapping once. */
  lemma AddParenthesesIdempotent(exp: string)
    ensures AddParentheses(AddParentheses(exp)) == AddParentheses(exp)
  {
  }

  /** The operand text with a trailing ".0" dropped, so 5.0 shows as "5". */
  function StripZeroFraction(s: string): (r: string)
    ensures r <= s
    ensures HasSuffix(s, ".0") ==> r + ".0" == s
    ensures !HasSuffix(s, ".0") ==> r == s
  {
    if HasSuffix(s, ".0") then s[..|s| - 2] else s
  }

  /** Wraps `t` when `wrap` holds. */
  function ParenthesizeIf(t: string, wrap: bool): string {
    if wrap then AddParentheses(t) else t
  }

  /** The precedence rule for the operand nearer the top (printed right of
      the symbol): wrapped whenever its precedence is not 0. */
  predicate WrapFirst(p1: int) {
    p1 != 0
  }

  /** The precedence rule for the farther operand (printed left of the
      symbol): wrapped when the operator binds tighter and the operand's
      precedence is not 0. */
  predicate WrapSecond(p: int, p2: int) {
    p > p2 && p2 != 0
  }

  /** How a unary operator is printed around its operand: function style for
      a non-negative precedence, a bare prefix sign otherwise. */
  function UnaryText(symbol: string, p: int, inner: string): string {
    if p >= 0 then symbol + "(" + inner + ")" else symbol + inner
  }

  /** How a binary operator is printed around its operands' texts. */
  function BinaryText(symbol: string, p: int, text1: string, p1: int, text2: string, p2: int): string {
    ParenthesizeIf(text2, WrapSecond(p, p2)) + symbol + ParenthesizeIf(text1, WrapFirst(p1))
  }

  function Describe<N>(d: Domain<N>, ops: seq<Op<N>>): (r: Desc<N>)
    ensures ops == [] ==> r == Desc(None, 0, [])
    ensures ops != [] ==> r.text.Some? && |r.remaining| < |ops|
    ensures ops != [] ==> r.precedence == Top(ops).precedence
    ensures |r.remaining| <= |ops|
    decreases |ops|
  {
    if ops == [] then Desc(None, 0, ops)
    else
      var rest := Below(ops);
      match Top(ops)
      case Operand(v, p) => Desc(Some(StripZeroFraction(d.show(v))), p, rest)
      case UnaryOperation(s, p, _) =>
        var inner := Describe(d, rest);
        Desc(Some(UnaryText(s, p, inner.text.GetOr("?"))), p, inner.remaining)
      case BinaryOperation(s, p, _) =>
        var r1 := Describe(d, rest);
        var r2 := Describe(d, r1.remaining);
        Desc(Some(BinaryText(s, p, r1.text.GetOr("?"), r1.precedence, r2.text.GetOr("?"), r2.precedence)),
             p, r2.remaining)
      case Variable(s, p) => Desc(Some(s), p, rest)
      case Constant(s, _, p) => Desc(Some(s), p, rest)
  }

  /** An operator with no operands at all renders its operands as "?". */
  lemma MissingOperandsRenderAsQuestionMarks<N>(d: Domain<N>, op: Op<N>)
    requires IsOperator(op)
    ensures op.UnaryOperation? && op.precedence >= 0 ==>
              Describe(d, [op]).text == Some(op.symbol + "(?)")
    ensures op.UnaryOperation? && op.precedence < 0 ==>
              Describe(d, [op]).text == Some(op.symbol + "?")
    ensures op.BinaryOperation? ==> Describe(d, [op]).text == Some("?" + op.symbol + "?")
    ensures Describe(d, [op]).remaining == []
  {
    assert Below([op]) == [];
    if op.UnaryOperation? {
      assert Describe(d, Below([op])).text.GetOr("?") == "?";
      assert op.symbol + "(" + "?" + ")" == op.symbol + "(?)";
    }
  }

  /** Pushing a binary operator over a stack describes the stack twice: the
      nearer operand first, then the farther one from what the first left. */
  lemma DescribeBinaryStep<N>(d: Domain<N>, rest: seq<Op<N>>, s: string, p: int, k: BinaryKind)
    ensures (var r1 := Describe(d, rest);
             var r2 := Describe(d, r1.remaining);
             Describe(d, rest + [BinaryOperation(s, p, k)])
             == Desc(Some(BinaryText(s, p, r1.text.GetOr("?"), r1.precedence, r2.text.GetOr("?"), r2.precedence)),
                     p, r2.remaining))
  {
    var ops := rest + [BinaryOperation(s, p, k)];
    assert Below(ops) == rest && Top(ops) == BinaryOperation(s, p, k);
  }

  /** A binary operator pushed over a stack that describes completely as one
      expression t of precedence q renders its farther operand as "?". */
  lemma BinaryOverComplete<N>(d: Domain<N>, rest: seq<Op<N>>, s: string, p: int, k: BinaryKind,
                              t: string, q: int)
    requires Describe(d, rest) == Desc(Some(t), q, [])
    ensures Describe(d, rest + [BinaryOperation(s, p, k)])
         == Desc(Some("?" + s + ParenthesizeIf(t, q != 0)), p, [])
  {
    DescribeBinaryStep(d, rest, s, p, k);
    MissingSecondText(s, p, t, q);
  }

  /** A missing farther operand is never wrapped. A one-step string fact kept
      apart so that `BinaryOverComplete` stays cheap for the solver. */
  lemma MissingSecondText(s: string, p: int, t: string, q: int)
    ensures BinaryText(s, p, t, q, "?", 0) == "?" + s + ParenthesizeIf(t, q != 0)
  {
  }

  /** What the describer leaves is the bottom part of the stack it was given. */
  lemma {:induction false} DescribeLeavesPrefix<N>(d: Domain<N>, ops: seq<Op<N>>)
    ensures Describe(d, ops).remaining <= ops
    decreases |ops|
  {
    if ops != [] {
      var rest := Below(ops);
      match Top(ops)
      case Operand(_, _) =>
      case Constant(_, _, _) =>
      case Variable(_, _) =>
      case UnaryOperation(_, _, _) =>
        DescribeLeavesPrefix(d, rest);
      case BinaryOperation(_, _, _) =>
        DescribeLeavesPrefix(d, rest);
        DescribeLeavesPrefix(d, Describe(d, rest).remaining);
    }
  }

  /** Whenever the evaluator finds a value, the describer consumes exactly the
      same ops: both read one complete expression off the top. */
  lemma {:induction false} DescribeConsumesLikeEvaluate<N>(d: Domain<N>, vars: map<string, N>, ops: seq<Op<N>>)
    requires Evaluate(d, vars, ops).result.Some?
    ensures Describe(d, ops).remaining == Evaluate(d, vars, ops).remaining
    decreases |ops|
  {
    match Top(ops)
    case Operand(_, _) =>
    case Constant(_, _, _) =>
    case Variable(_, _) =>
    case UnaryOperation(_, _, _) =>
      DescribeConsumesLikeEvaluate(d, vars, Below(ops));
    case BinaryOperation(_, _, _) =>
      var e1 := Evaluate(d, vars, Below(ops));
      DescribeConsumesLikeEvaluate(d, vars, Below(ops));
      DescribeConsumesLikeEvaluate(d, vars, e1.remaining);
  }

  // ---------------------------------------------------------------------
  // Several expressions
  // ---------------------------------------------------------------------

  /** The expressions a stack holds, described one after another from the
      top and listed bottom first. */
  function Pieces<N>(d: Domain<N>, ops: seq<Op<N>>): (r: seq<string>)
    ensures |r| <= |ops|
    ensures r == [] <==> ops == []
    decreases |ops|
  {
    if ops == [] then []
    else
      var x := Describe(d, ops);
      Pieces(d, x.remaining) + [x.text.value]
  }

  /** One round of the driver: the piece described from the top of a
      non-empty stack goes in front of the pieces found so far. */
  lemma PiecesStep<N>(d: Domain<N>, ops: seq<Op<N>>, found: seq<string>)
    requires ops != []
    ensures Describe(d, ops).text.Some?
    ensures Pieces(d, ops) + found
            == Pieces(d, Describe(d, ops).remaining) + ([Describe(d, ops).text.value] + found)
  {
    var x := Describe(d, ops);
    var before := Pieces(d, x.remaining);
    assert Pieces(d, ops) == before + [x.text.value];
    AppendInFront(before, x.text.value, found);
  }

  lemma AppendInFront<T>(a: seq<T>, x: T, b: seq<T>)
    ensures (a + [x]) + b == a + ([x] + b)
  {
  }

  /** `describeOpStack()`: the source's loop, which appends the first piece
      and inserts every later one at the front. */
  method DescribeStack<N>(d: Domain<N>, ops: seq<Op<N>>) returns (expressions: seq<string>)
    ensures expressions == Pieces(d, ops)
  {
    expressions := [];
    var first := Describe(d, ops);
    if ops != [] {
      PiecesStep(d, ops, []);
    }
    if first.text.Some? {
      expressions := expressions + [first.text.value];
    }
    var remaining := first.remaining;
    while remaining != []
      invariant Pieces(d, ops) == Pieces(d, remaining) + expressions
      decreases |remaining|
    {
      var next := Describe(d, remaining);
      PiecesStep(d, remaining, expressions);
      remaining := next.remaining;
      if next.text.Some? {
        expressions := [next.text.value] + expressions;
      }
    }
  }

  /** `description`: the pieces joined with ", ". */
  function StackDescription<N>(d: Domain<N>, ops: seq<Op<N>>): (text: string)
    ensures ops == [] ==> text == ""
    ensures ops != [] ==> HasPrefix(text, Pieces(d, ops)[0])
  {
    Join(Pieces(d, ops), ", ")
  }

  // ---------------------------------------------------------------------
  // What the describer looks at
  // ---------------------------------------------------------------------

  /** The part of an op the describer reads: its text, arity and precedence. */
  datatype RenderKey =
    | LeafKey(text: string, precedence: int)
    | UnaryKey(symbol: string, precedence: int)
    | BinaryKey(symbol: string, precedence: int)

  function KeyOf<N>(d: Domain<N>, op: Op<N>): RenderKey {
    match op
    case Operand(v, p) => LeafKey(StripZeroFraction(d.show(v)), p)
    case Variable(s, p) => LeafKey(s, p)
    case Constant(s, _, p) => LeafKey(s, p)
    case UnaryOperation(s, p, _) => UnaryKey(s, p)
    case BinaryOperation(s, p, _) => BinaryKey(s, p)
  }

  /** Two stacks that agree op by op on what the describer reads. */
  ghost predicate SameKeys<N>(d: Domain<N>, a: seq<Op<N>>, b: seq<Op<N>>) {
    |a| == |b| && forall i :: 0 <= i < |a| ==> KeyOf(d, a[i]) == KeyOf(d, b[i])
  }

  lemma SameKeysPrefix<N>(d: Domain<N>, a: seq<Op<N>>, b: seq<Op<N>>, a': seq<Op<N>>, b': seq<Op<N>>)
    requires SameKeys(d, a, b) && a' <= a && b' <= b && |a'| == |b'|
    ensures SameKeys(d, a', b')
  {
    forall i | 0 <= i < |a'|
      ensures KeyOf(d, a'[i]) == KeyOf(d, b'[i])
    {
      assert a'[i] == a[i] && b'[i] == b[i];
    }
  }

  /** The description of a stack depends only on the keys of its ops: values
      with the same text, and leaves with the same symbol, describe alike. */
  lemma {:induction false} DescribeRespectsKeys<N>(d: Domain<N>, a: seq<Op<N>>, b: seq<Op<N>>)
    requires SameKeys(d, a, b)
    ensures Describe(d, a).text == Describe(d, b).text
    ensures Describe(d, a).precedence == Describe(d, b).precedence
    ensures SameKeys(d, Describe(d, a).remaining, Describe(d, b).remaining)
    decreases |a|
  {
    if a != [] {
      assert KeyOf(d, Top(a)) == KeyOf(d, Top(b));
      SameKeysPrefix(d, a, b, Below(a), Below(b));
      match Top(a)
      case Operand(_, _) =>
      case Constant(_, _, _) =>
      case Variable(_, _) =>
      case UnaryOperation(_, _, _) =>
        DescribeRespectsKeys(d, Below(a), Below(b));
        DescribeLeavesPrefix(d, Below(a));
        DescribeLeavesPrefix(d, Below(b));
        SameKeysPrefix(d, a, b, Describe(d, Below(a)).remaining, Describe(d, Below(b)).remaining);
      case BinaryOperation(_, _, _) =>
        var r1a := Describe(d, Below(a));
        var r1b := Describe(d, Below(b));
        DescribeRespectsKeys(d, Below(a), Below(b));
        DescribeRespectsKeys(d, r1a.remaining, r1b.remaining);
        var r2a := Describe(d, r1a.remaining);
        var r2b := Describe(d, r1b.remaining);
        DescribeLeavesPrefix(d, Below(a));
        DescribeLeavesPrefix(d, Below(b));
        DescribeLeavesPrefix(d, r1a.remaining);
        DescribeLeavesPrefix(d, r1b.remaining);
        SameKeysPrefix(d, a, b, r2a.remaining, r2b.remaining);
    }
  }

  lemma {:induction false} PiecesRespectKeys<N>(d: Domain<N>, a: seq<Op<N>>, b: seq<Op<N>>)
    requires SameKeys(d, a, b)
    ensures Pieces(d, a) == Pieces(d, b)
    decreases |a|
  {
    if a != [] {
      DescribeRespectsKeys(d, a, b);
      PiecesRespectKeys(d, Describe(d, a).remaining, Describe(d, b).remaining);
    }
  }
}

=== FILE: error_report.dfy ===
/** The error-reporting evaluator `evaluateAndReportErrors`.

    It has the plain evaluator's shape but inspects only the op on top of the
    stack: the operands beneath are resolved with the plain `Evaluate`, so a
    domain error below the top op yields no message. A missing variable below
    it never yields "(x=❓)": under a binary operator it shows as a missing
    operand, "op1❓" or "op2❓", and under a unary one nothing is reported. */
module ErrorReport {
  import opened Options
  import opened Numbers
  import opened Ops
  import opened Evaluator

  datatype Report<N> = Report(result: Option<N>, message: Option<string>, remaining: seq<Op<N>>)

  const FirstOperandMessage: string := "op1❓"
  const SecondOperandMessage: string := "op2❓"

  /** The message for a variable that has no value. */
  function UnboundMessage(symbol: string): (m: string)
    ensures HasParenthesisFirst(m)
    ensures |m| == |symbol| + 4
    ensures m[1..|symbol| + 1] == symbol && m[|symbol| + 1..] == "=❓)"
  {
    "(" + symbol + "=❓)"
  }

  predicate HasParenthesisFirst(m: string) {
    |m| > 0 && m[0] == '('
  }

  function EvaluateAndReportErrors<N>(d: Domain<N>, vars: map<string, N>, ops: seq<Op<N>>): (r: Report<N>)
    ensures r.result == Evaluate(d, vars, ops).result
    ensures ops == [] ==> r == Report(None, None, [])
    ensures r.remaining <= ops
  {
    if ops == [] then Report(None, None, ops)
    else
      var rest := Below(ops);
      match Top(ops)
      case Operand(v, _) => Report(Some(v), None, rest)
      case UnaryOperation(_, _, k) =>
        var e := Evaluate(d, vars, rest);
        if e.result.Some? then
          var x := e.result.value;
          Report(Some(ApplyUnary(d, k, x)), UnaryCheck(d, k, x), e.remaining)
        else Report(None, None, ops)
      case BinaryOperation(_, _, k) =>
        var e1 := Evaluate(d, vars, rest);
        if e1.result.Some? then
          var e2 := Evaluate(d, vars, e1.remaining);
          if e2.result.Some? then
            var x1 := e1.result.value;
            var x2 := e2.result.value;
            Report(Some(ApplyBinary(d, k, x1, x2)), BinaryCheck(d, k, x1, x2), e2.remaining)
          else Report(None, Some(SecondOperandMessage), e2.remaining)
        else Report(None, Some(FirstOperandMessage), e1.remaining)
      case Variable(s, _) =>
        if s in vars then Report(Some(vars[s]), None, rest)
        else Report(None, Some(UnboundMessage(s)), rest)
      case Constant(_, v, _) => Report(Some(v), None, rest)
  }

  /** `evaluateAndReportErrors()`: the message if there is one, else the
      result's text, else "?". */
  function ReportErrors<N>(d: Domain<N>, vars: map<string, N>, ops: seq<Op<N>>): (text: string)
    ensures ops == [] ==> text == "?"
    ensures EvaluateAndReportErrors(d, vars, ops).message.Some? ==>
              text == EvaluateAndReportErrors(d, vars, ops).message.value
    ensures EvaluateAndReportErrors(d, vars, ops).message.None? ==>
              text == (if Evaluate(d, vars, ops).result.Some?
                       then d.show(Evaluate(d, vars, ops).result.value) else "?")
  {
    var r := EvaluateAndReportErrors(d, vars, ops);
    if r.message.Some? then r.message.value
    else if r.result.Some? then d.show(r.result.value)
    else "?"
  }

  // ---------------------------------------------------------------------
  // Which message appears when
  // ---------------------------------------------------------------------

  /** An unbound variable is reported exactly when it is the top op. */
  lemma UnboundVariableReported<N>(d: Domain<N>, vars: map<string, N>, ops: seq<Op<N>>, s: string)
    ensures EvaluateAndReportErrors(d, vars, ops).message == Some(UnboundMessage(s))
            <==> ops != [] && Top(ops).Variable? && Top(ops).symbol == s && s !in vars
  {
    var r := EvaluateAndReportErrors(d, vars, ops);
    if r.message == Some(UnboundMessage(s)) {
      assert HasParenthesisFirst(r.message.value);
      assert !HasParenthesisFirst(FirstOperandMessage);
      assert !HasParenthesisFirst(SecondOperandMessage);
      assert !HasParenthesisFirst(DividendMessage);
      assert !HasParenthesisFirst(SquareRootMessage);
      if Top(ops).Variable? {
        assert UnboundMessage(Top(ops).symbol) == UnboundMessage(s);
        assert UnboundMessage(Top(ops).symbol)[1..|Top(ops).symbol| + 1] == Top(ops).symbol;
        assert UnboundMessage(s)[1..|s| + 1] == s;
      }
    }
  }

  /** A binary operator on top whose nearer operand cannot be evaluated
      reports the first operand as missing, and nothing else does. */
  lemma FirstOperandReported<N>(d: Domain<N>, vars: map<string, N>, ops: seq<Op<N>>)
    ensures EvaluateAndReportErrors(d, vars, ops).message == Some(FirstOperandMessage)
            <==> ops != [] && Top(ops).BinaryOperation?
                 && Evaluate(d, vars, Below(ops)).result.None?
  {
    var r := EvaluateAndReportErrors(d, vars, ops);
    if r.message == Some(FirstOperandMessage) {
      assert !HasParenthesisFirst(FirstOperandMessage);
      assert FirstOperandMessage != SecondOperandMessage;
      assert FirstOperandMessage != DividendMessage;
      assert FirstOperandMessage != SquareRootMessage;
    }
  }

  /** A binary operator on top whose nearer operand evaluates but whose
      farther one does not reports the second operand as missing. */
  lemma SecondOperandReported<N>(d: Domain<N>, vars: map<string, N>, ops: seq<Op<N>>)
    ensures EvaluateAndReportErrors(d, vars, ops).message == Some(SecondOperandMessage)
            <==> ops != [] && Top(ops).BinaryOperation?
                 && Evaluate(d, vars, Below(ops)).result.Some?
                 && Evaluate(d, vars, Evaluate(d, vars, Below(ops)).remaining).result.None?
  {
    var r := EvaluateAndReportErrors(d, vars, ops);
    if r.message == Some(SecondOperandMessage) {
      assert !HasParenthesisFirst(SecondOperandMessage);
      assert FirstOperandMessage != SecondOperandMessage;
      assert SecondOperandMessage != DividendMessage;
      assert SecondOperandMessage != SquareRootMessage;
    }
  }

  /** The division message appears exactly when a division is on top, both
      operands evaluate, and the nearer one (the divisor) is zero. */
  lemma DivisionByZeroReported<N>(d: Domain<N>, vars: map<string, N>, ops: seq<Op<N>>)
    ensures EvaluateAndReportErrors(d, vars, ops).message == Some(DividendMessage)
            <==> ops != [] && Top(ops).BinaryOperation? && Top(ops).binary == Divide
                 && var e1 := Evaluate(d, vars, Below(ops));
                    e1.result.Some? && Evaluate(d, vars, e1.remaining).result.Some?
                    && d.isZero(e1.result.value)
  {
    var r := EvaluateAndReportErrors(d, vars, ops);
    if r.message == Some(DividendMessage) {
      assert !HasParenthesisFirst(DividendMessage);
      assert FirstOperandMessage != DividendMessage;
      assert SecondOperandMessage != DividendMessage;
      assert SquareRootMessage != DividendMessage;
    }
  }

  /** The square-root message appears exactly when a square root is on top
      and its operand evaluates to a negative number. */
  lemma NegativeRootReported<N>(d: Domain<N>, vars: map<string, N>, ops: seq<Op<N>>)
    ensures EvaluateAndReportErrors(d, vars, ops).message == Some(SquareRootMessage)
            <==> ops != [] && Top(ops).UnaryOperation? && Top(ops).unary == SquareRoot
                 && var e := Evaluate(d, vars, Below(ops));
                    e.result.Some? && d.isNegative(e.result.value)
  {
    var r := EvaluateAndReportErrors(d, vars, ops);
    if r.message == Some(SquareRootMessage) {
      assert !HasParenthesisFirst(SquareRootMessage);
      assert FirstOperandMessage != SquareRootMessage;
      assert SecondOperandMessage != SquareRootMessage;
      assert SquareRootMessage != DividendMessage;
    }
  }

  /** A domain error is reported together with the value computed anyway;
      a missing operand or variable is reported with no value. */
  lemma MessageAndResult<N>(d: Domain<N>, vars: map<string, N>, ops: seq<Op<N>>)
    ensures var r := EvaluateAndReportErrors(d, vars, ops);
            r.message.Some? ==>
              (r.result.Some? <==> r.message.value == DividendMessage || r.message.value == SquareRootMessage)
  {
    var r := EvaluateAndReportErrors(d, vars, ops);
    if r.message.Some? {
      assert !HasParenthesisFirst(FirstOperandMessage);
      assert !HasParenthesisFirst(SecondOperandMessage);
      assert !HasParenthesisFirst(DividendMessage);
      assert !HasParenthesisFirst(SquareRootMessage);
      assert FirstOperandMessage != DividendMessage && FirstOperandMessage != SquareRootMessage;
      assert SecondOperandMessage != DividendMessage && SecondOperandMessage != SquareRootMessage;
    }
  }

  /** Evaluation fails without any message only on the empty stack or when a
      unary operator on top has no operand value: the source reports nothing
      in that case. */
  lemma SilentFailure<N>(d: Domain<N>, vars: map<string, N>, ops: seq<Op<N>>)
    ensures var r := EvaluateAndReportErrors(d, vars, ops);
            r.result.None? && r.message.None?
            <==> ops == [] || (Top(ops).UnaryOperation? && Evaluate(d, vars, Below(ops)).result.None?)
  {
  }

  /** A division by zero below the top op goes unreported. */
  lemma BuriedDivisionByZeroUnreported<N>(d: Domain<N>, vars: map<string, N>, a: N, b: N, c: N)
    requires d.isZero(b)
    ensures var ops := [Operand(a, 0), Operand(b, 0), BinaryOperation("÷", 2, Divide),
                        Operand(c, 0), BinaryOperation("+", 1, Plus)];
            && EvaluateAndReportErrors(d, vars, ops).message == None
            && EvaluateAndReportErrors(d, vars, ops).result == Some(d.add(c, d.div(a, b)))
            && EvaluateAndReportErrors(d, vars, ops[..3]).message == Some(DividendMessage)
  {
    var ops := [Operand(a, 0), Operand(b, 0), BinaryOperation("÷", 2, Divide),
                Operand(c, 0), BinaryOperation("+", 1, Plus)];
    assert Below(ops) == ops[..4];
    assert Below(ops[..4]) == ops[..3];
    assert Below(ops[..3]) == ops[..2];
    assert Below(ops[..2]) == ops[..1];
    assert Below(ops[..1]) == [];
    assert Evaluate(d, vars, ops[..2]) == Eval(Some(b), ops[..1]);
    assert Evaluate(d, vars, ops[..1]) == Eval(Some(a), []);
    assert Evaluate(d, vars, ops[..3]) == Eval(Some(d.div(a, b)), []);
    assert Evaluate(d, vars, ops[..4]) == Eval(Some(c), ops[..3]);
  }

  /** An unbound variable below the top op goes unreported: `x sin` shows "?". */
  lemma BuriedUnboundVariableUnreported<N>(d: Domain<N>, vars: map<string, N>, x: string)
    requires x !in vars
    ensures var ops: seq<Op<N>> := [Variable(x, 0), UnaryOperation("sin", 0, Sine)];
            && EvaluateAndReportErrors(d, vars, ops) == Report(None, None, ops)
            && ReportErrors(d, vars, ops) == "?"
            && ReportErrors(d, vars, ops[..1]) == UnboundMessage(x)
  {
    var ops: seq<Op<N>> := [Variable(x, 0), UnaryOperation("sin", 0, Sine)];
    assert Below(ops) == ops[..1];
    assert Below(ops[..1]) == [];
  }
}

=== FILE: evaluator.dfy ===
/** The plain recursive evaluator `evaluate(ops)`.

    It consumes the stack from the top and returns the value of the
    expression found there together with the ops below it. When the
    expression cannot be evaluated, it returns the stack it was given, so a
    partially consumed remainder is discarded. */
module Evaluator {
  import opened Options
  import opened Numbers
  import opened Ops

  datatype Eval<N> = Eval(result: Option<N>, remaining: seq<Op<N>>)

  function Evaluate<N>(d: Domain<N>, vars: map<string, N>, ops: seq<Op<N>>): (r: Eval<N>)
    ensures ops == [] ==> r == Eval(None, [])
    ensures r.result.None? ==> r.remaining == ops
    ensures r.result.Some? ==> r.remaining < ops
    decreases |ops|
  {
    if ops == [] then Eval(None, ops)
    else
      var rest := Below(ops);
      match Top(ops)
      case Operand(v, _) => Eval(Some(v), rest)
      case UnaryOperation(_, _, k) =>
        var e := Evaluate(d, vars, rest);
        if e.result.Some? then Eval(Some(ApplyUnary(d, k, e.result.value)), e.remaining)
        else Eval(None, ops)
      case BinaryOperation(_, _, k) =>
        var e1 := Evaluate(d, vars, rest);
        if e1.result.Some? then
          var e2 := Evaluate(d, vars, e1.remaining);
          if e2.result.Some? then
            Eval(Some(ApplyBinary(d, k, e1.result.value, e2.result.value)), e2.remaining)
          else Eval(None, ops)
        else Eval(None, ops)
      case Variable(s, _) =>
        if s in vars then Eval(Some(vars[s]), rest) else Eval(None, ops)
      case Constant(_, v, _) => Eval(Some(v), rest)
  }

  /** Pushing a binary operator over a stack evaluates the stack twice: op1
      first, then op2 from what op1 left; the operator fails unless both do. */
  lemma EvaluateBinaryStep<N>(d: Domain<N>, vars: map<string, N>, rest: seq<Op<N>>, s: string, p: int, k: BinaryKind)
    ensures (var ops := rest + [BinaryOperation(s, p, k)];
             var e1 := Evaluate(d, vars, rest);
             var e2 := Evaluate(d, vars, e1.remaining);
             Evaluate(d, vars, ops)
             == if e1.result.Some? && e2.result.Some?
                then Eval(Some(ApplyBinary(d, k, e1.result.value, e2.result.value)), e2.remaining)
                else Eval(None, ops))
  {
    var ops := rest + [BinaryOperation(s, p, k)];
    assert Below(ops) == rest && Top(ops) == BinaryOperation(s, p, k);
  }

  /** The binary step in terms of what its two operands' stacks evaluate to:
      x from `left` down to `below`, y from `rest` down to `left`. */
  lemma EvaluateBinaryFromParts<N>(d: Domain<N>, vars: map<string, N>, below: seq<Op<N>>, left: seq<Op<N>>,
                                   rest: seq<Op<N>>, s: string, p: int, k: BinaryKind, x: Option<N>, y: Option<N>)
    requires Evaluate(d, vars, rest) == if y.Some? then Eval(y, left) else Eval(None, rest)
    requires Evaluate(d, vars, left) == if x.Some? then Eval(x, below) else Eval(None, left)
    ensures Evaluate(d, vars, rest + [BinaryOperation(s, p, k)])
         == if x.Some? && y.Some? then Eval(Some(ApplyBinary(d, k, y.value, x.value)), below)
            else Eval(None, rest + [BinaryOperation(s, p, k)])
  {
    EvaluateBinaryStep(d, vars, rest, s, p, k);
  }

  /** An operand or a constant on top yields its own value and consumes exactly one op. */
  lemma LeafConsumesOne<N>(d: Domain<N>, vars: map<string, N>, ops: seq<Op<N>>)
    requires ops != [] && (Top(ops).Operand? || Top(ops).Constant?)
    ensures Evaluate(d, vars, ops) == Eval(Some(Top(ops).value), Below(ops))
  {
  }

  /** Evaluating a stack whose top expression is complete does not look at
      what lies below it: putting more ops underneath changes only the
      remainder. */
  lemma {:induction false} EvaluateFrame<N>(d: Domain<N>, vars: map<string, N>, below: seq<Op<N>>, ops: seq<Op<N>>)
    requires Evaluate(d, vars, ops).result.Some?
    ensures Evaluate(d, vars, below + ops)
         == Eval(Evaluate(d, vars, ops).result, below + Evaluate(d, vars, ops).remaining)
    decreases |ops|
  {
    var all := below + ops;
    assert Below(all) == below + Below(ops);
    assert Top(all) == Top(ops);
    match Top(ops)
    case Operand(_, _) =>
    case Constant(_, _, _) =>
    case Variable(_, _) =>
    case UnaryOperation(_, _, _) =>
      EvaluateFrame(d, vars, below, Below(ops));
    case BinaryOperation(_, _, _) =>
      var e1 := Evaluate(d, vars, Below(ops));
      EvaluateFrame(d, vars, below, Below(ops));
      EvaluateFrame(d, vars, below, e1.remaining);
  }

  /** Operand order of a binary operator: the value pushed first is the left
      operand, so `a b −` computes `a − b` and `a b ÷` computes `a ÷ b`. */
  lemma BinaryOperandOrder<N>(d: Domain<N>, vars: map<string, N>, below: seq<Op<N>>,
                              a: N, b: N, s: string, p: int, k: BinaryKind)
    ensures var r := Evaluate(d, vars, below + [Operand(a, 0), Operand(b, 0), BinaryOperation(s, p, k)]);
            && r.remaining == below
            && (k == Minus ==> r.result == Some(d.sub(a, b)))
            && (k == Divide ==> r.result == Some(d.div(a, b)))
            && (k == Plus ==> r.result == Some(d.add(b, a)))
            && (k == Times ==> r.result == Some(d.mul(b, a)))
  {
    var ops := below + [Operand(a, 0), Operand(b, 0), BinaryOperation(s, p, k)];
    assert Below(ops) == below + [Operand(a, 0)] + [Operand(b, 0)];
    assert Below(Below(ops)) == below + [Operand(a, 0)];
  }
}

=== FILE: examples.dfy ===
/** Worked examples on an integer instance of the number domain.

    The instance prints a number the way Swift prints a whole `Double`
    ("5.0"); its square root, sine and cosine are stand-ins, since no example
    below depends on them, and its parser reads nothing. Its division is
    integer division and gives 0 for a zero divisor, where `Double` division
    gives an infinity: the division-by-zero sessions below show the message,
    which does not depend on that value, and a result of 0 that is the
    stand-in's. */
module Examples {
  import opened Options
  import opened Numbers
  import opened Text
  import opened Ops
  import opened Evaluator
  import opened ErrorReport
  import opened Describer
  import opened Expressions
  import opened Brain

  function DigitChar(n: nat): (c: char)
    requires n < 10
    ensures '0' <= c <= '9'
  {
    "0123456789"[n]
  }

  function Digits(n: nat): (s: string)
    ensures |s| >= 1
  {
    if n < 10 then [DigitChar(n)] else Digits(n / 10) + [DigitChar(n % 10)]
  }

  /** Swift's text for a whole-valued double. */
  function WholeText(n: int): string {
    (if n < 0 then "-" + Digits(-n) else Digits(n)) + ".0"
  }

  function IntDomain(): Domain<int> {
    Domain(
      0, 3,
      (a, b) => a + b, (a, b) => a - b, (a, b) => a * b,
      (a, b) => if b == 0 then 0 else a / b,
      x => x, x => x, x => x,
      x => x == 0, x => x < 0,
      WholeText, t => None)
  }

  // The registry's operators, as the engine pushes them (see ExampleOperatorsAreRegistered).
  const TimesOp: Op<int> := BinaryOperation("×", 2, Times)
  const DivideOp: Op<int> := BinaryOperation("÷", 2, Divide)
  const PlusOp: Op<int> := BinaryOperation("+", 1, Plus)
  const MinusOp: Op<int> := BinaryOperation("−", 1, Minus)
  const RootOp: Op<int> := UnaryOperation("√", 0, SquareRoot)
  const SignOp: Op<int> := UnaryOperation("-", -1, Negation)

  /** The constants above are the built-in registry's entries. */
  lemma ExampleOperatorsAreRegistered()
    ensures var m := KnownOperators(IntDomain());
            && m["×"] == TimesOp && m["÷"] == DivideOp && m["+"] == PlusOp
            && m["−"] == MinusOp && m["√"] == RootOp && m["-"] == SignOp
  {
  }

  /** The operand the engine pushes for a number. */
  function Lit(n: int): Op<int> {
    Operand(n, 0)
  }

  function Num(n: int): Expr<int> {
    Number(n)
  }

  function Plus2(l: Expr<int>, r: Expr<int>): Expr<int> {
    Apply2("+", 1, Plus, l, r)
  }

  function Times2(l: Expr<int>, r: Expr<int>): Expr<int> {
    Apply2("×", 2, Times, l, r)
  }

  function Minus2(l: Expr<int>, r: Expr<int>): Expr<int> {
    Apply2("−", 1, Minus, l, r)
  }

  /** A one-digit number renders as that digit. */
  lemma RenderDigit(n: nat)
    requires n < 10
    ensures Render(IntDomain(), Num(n)) == [DigitChar(n)]
  {
    var t := IntDomain().show(n);
    assert t == [DigitChar(n)] + ".0";
    assert t[|t| - 2..] == ".0";
  }

  /** The sum of two digits renders as "a+b", and wrapped as "(a+b)". */
  lemma RenderSum(a: nat, b: nat)
    requires a < 10 && b < 10
    ensures Render(IntDomain(), Plus2(Num(a), Num(b))) == [DigitChar(a), '+', DigitChar(b)]
    ensures AddParentheses(Render(IntDomain(), Plus2(Num(a), Num(b))))
            == ['(', DigitChar(a), '+', DigitChar(b), ')']
  {
    RenderDigit(a);
    RenderDigit(b);
  }

  /** `5 6 + 4 ×` evaluates to 44: the sum is the farther operand of the product. */
  lemma EvaluateExample()
    ensures Evaluate(IntDomain(), map[], [Lit(5), Lit(6), PlusOp, Lit(4), TimesOp]) == Eval(Some(44), [])
  {
    var e := Times2(Plus2(Num(5), Num(6)), Num(4));
    assert Compile(e) == [Lit(5), Lit(6), PlusOp, Lit(4), TimesOp];
    EvaluateCompiled(IntDomain(), map[], [], e);
    assert [] + Compile(e) == Compile(e);
  }

  /** `7 2 −` is 7 − 2 and `8 2 ÷` is 8 ÷ 2. */
  lemma OperandOrderExample()
    ensures Evaluate(IntDomain(), map[], [Lit(7), Lit(2), MinusOp]).result == Some(5)
    ensures Evaluate(IntDomain(), map[], [Lit(8), Lit(2), DivideOp]).result == Some(4)
  {
    assert [] + [Lit(7), Lit(2), MinusOp] == [Lit(7), Lit(2), MinusOp];
    assert [] + [Lit(8), Lit(2), DivideOp] == [Lit(8), Lit(2), DivideOp];
    BinaryOperandOrder(IntDomain(), map[], [], 7, 2, "−", 1, Minus);
    BinaryOperandOrder(IntDomain(), map[], [], 8, 2, "÷", 2, Divide);
  }

  /** The stack keyed in for a tree is described as the tree's rendering. */
  lemma DescribeTree(e: Expr<int>, ops: seq<Op<int>>, text: string)
    requires Compile(e) == ops && Render(IntDomain(), e) == text
    ensures Describe(IntDomain(), ops).text == Some(text)
  {
    DescribeCompiled(IntDomain(), [], e);
    assert [] + Compile(e) == ops;
  }

  /** `3 4 5 + ×` is described as "3×(4+5)". */
  lemma ProductOfSumExample()
    ensures Describe(IntDomain(), [Lit(3), Lit(4), Lit(5), PlusOp, TimesOp]).text == Some("3×(4+5)")
  {
    RenderDigit(3); RenderDigit(4); RenderDigit(5);
    var sum := Plus2(Num(4), Num(5));
    assert Render(IntDomain(), sum) == "4+5";
    assert AddParentheses("4+5") == "(4+5)";
    var e := Times2(Num(3), sum);
    assert Render(IntDomain(), e) == "3" + "×" + "(4+5)";
    DescribeTree(e, [Lit(3), Lit(4), Lit(5), PlusOp, TimesOp], "3×(4+5)");
  }

  /** `1 2 3 + −` is described as "1−(2+3)". */
  lemma DifferenceOfSumExample()
    ensures Describe(IntDomain(), [Lit(1), Lit(2), Lit(3), PlusOp, MinusOp]).text == Some("1−(2+3)")
  {
    RenderDigit(1); RenderDigit(2); RenderDigit(3);
    var sum := Plus2(Num(2), Num(3));
    assert Render(IntDomain(), sum) == "2+3";
    assert AddParentheses("2+3") == "(2+3)";
    var e := Minus2(Num(1), sum);
    assert Render(IntDomain(), e) == "1" + "−" + "(2+3)";
    DescribeTree(e, [Lit(1), Lit(2), Lit(3), PlusOp, MinusOp], "1−(2+3)");
  }

  /** `1 2 3 + +` is described as "1+(2+3)": the right operand is wrapped
      even under an operator of the same precedence. */
  lemma SumOfSumExample()
    ensures Describe(IntDomain(), [Lit(1), Lit(2), Lit(3), PlusOp, PlusOp]).text == Some("1+(2+3)")
  {
    RenderDigit(1); RenderDigit(2); RenderDigit(3);
    var sum := Plus2(Num(2), Num(3));
    assert Render(IntDomain(), sum) == "2+3";
    assert AddParentheses("2+3") == "(2+3)";
    var e := Plus2(Num(1), sum);
    assert Render(IntDomain(), e) == "1" + "+" + "(2+3)";
    DescribeTree(e, [Lit(1), Lit(2), Lit(3), PlusOp, PlusOp], "1+(2+3)");
  }

  /** `1 2 + 3 + 4 ×` is described as "(1+2+3)×4": a left-nested chain of
      additions needs no inner parentheses. */
  lemma LeftNestedExample()
    ensures Describe(IntDomain(), [Lit(1), Lit(2), PlusOp, Lit(3), PlusOp, Lit(4), TimesOp]).text
            == Some("(1+2+3)×4")
  {
    var sum := Plus2(Plus2(Num(1), Num(2)), Num(3));
    var e := Times2(sum, Num(4));
    assert Compile(e) == [Lit(1), Lit(2), PlusOp, Lit(3), PlusOp, Lit(4), TimesOp];
    RenderSumOfThree(1, 2, 3);
    RenderDigit(4);
    RenderSumTimes(sum, Num(4));
    LeftNestedText();
    DescribeTree(e, [Lit(1), Lit(2), PlusOp, Lit(3), PlusOp, Lit(4), TimesOp], "(1+2+3)×4");
  }

  /** A left-nested sum of three digits renders as "a+b+c", and wrapped as "(a+b+c)". */
  lemma RenderSumOfThree(a: nat, b: nat, c: nat)
    requires a < 10 && b < 10 && c < 10
    ensures Render(IntDomain(), Plus2(Plus2(Num(a), Num(b)), Num(c)))
            == [DigitChar(a), '+', DigitChar(b), '+', DigitChar(c)]
    ensures AddParentheses(Render(IntDomain(), Plus2(Plus2(Num(a), Num(b)), Num(c))))
            == ['(', DigitChar(a), '+', DigitChar(b), '+', DigitChar(c), ')']
  {
    RenderSum(a, b);
    RenderDigit(c);
    var t := [DigitChar(a), '+', DigitChar(b), '+', DigitChar(c)];
    RenderSumAfter(Plus2(Num(a), Num(b)), Num(c));
    assert [DigitChar(a), '+', DigitChar(b)] + "+" + [DigitChar(c)] == t;
    WrapDigitLed(t);
  }

  /** A sum whose left operand is a sum and whose right is plain needs no parentheses. */
  lemma RenderSumAfter(l: Expr<int>, r: Expr<int>)
    requires Prec(l) == 1 && Prec(r) == 0
    ensures Render(IntDomain(), Plus2(l, r)) == Render(IntDomain(), l) + "+" + Render(IntDomain(), r)
  {
  }

  /** A text that starts with a digit gets new parentheses. */
  lemma WrapDigitLed(t: string)
    requires t != [] && '0' <= t[0] <= '9'
    ensures AddParentheses(t) == ['('] + t + [')']
  {
    assert !HasPrefix(t, "(");
  }

  /** A sum times a plain operand wraps only the sum. */
  lemma RenderSumTimes(l: Expr<int>, r: Expr<int>)
    requires Prec(l) == 1 && Prec(r) == 0
    ensures Render(IntDomain(), Times2(l, r))
            == AddParentheses(Render(IntDomain(), l)) + "×" + Render(IntDomain(), r)
  {
  }

  // A string-literal fact kept in its own lemma to keep the solver's work small.
  lemma LeftNestedText()
    ensures ['(', DigitChar(1), '+', DigitChar(2), '+', DigitChar(3), ')'] + "×" + [DigitChar(4)]
            == "(1+2+3)×4"
  {
  }

  /** The tree (1+2)×(3+4). */
  function Product(): Expr<int> {
    Times2(Plus2(Num(1), Num(2)), Plus2(Num(3), Num(4)))
  }

  lemma ProductRendering()
    ensures Render(IntDomain(), Product()) == "(1+2)×(3+4)"
  {
    RenderSum(1, 2);
    RenderSum(3, 4);
    RenderProductOfSums(Plus2(Num(1), Num(2)), Plus2(Num(3), Num(4)));
    ProductText();
  }

  /** A product of two sums wraps both of them. */
  lemma RenderProductOfSums(l: Expr<int>, r: Expr<int>)
    requires Prec(l) == 1 && Prec(r) == 1
    ensures Render(IntDomain(), Times2(l, r))
            == AddParentheses(Render(IntDomain(), l)) + "×" + AddParentheses(Render(IntDomain(), r))
  {
  }

  // A string-literal fact kept in its own lemma to keep the solver's work small.
  lemma ProductText()
    ensures ['(', DigitChar(1), '+', DigitChar(2), ')'] + "×" + ['(', DigitChar(3), '+', DigitChar(4), ')']
            == "(1+2)×(3+4)"
  {
  }

  /** `1 2 + 3 4 + ×` is described as "(1+2)×(3+4)", a text that starts with
      "(" and ends with ")" without being one parenthesized group ... */
  lemma UncheckedParenthesesExample()
    ensures Describe(IntDomain(), [Lit(1), Lit(2), PlusOp, Lit(3), Lit(4), PlusOp, TimesOp]).text
            == Some("(1+2)×(3+4)")
  {
    ProductRendering();
    DescribeTree(Product(), [Lit(1), Lit(2), PlusOp, Lit(3), Lit(4), PlusOp, TimesOp], "(1+2)×(3+4)");
  }

  /** ... so wrapping leaves it alone ... */
  lemma ProductCountsAsWrapped()
    ensures Wrapped("(1+2)×(3+4)")
    ensures AddParentheses("(1+2)×(3+4)") == "(1+2)×(3+4)"
  {
  }

  /** The tree 5÷((1+2)×(3+4)). */
  function Quotient(): Expr<int> {
    Apply2("÷", 2, Divide, Num(5), Product())
  }

  lemma QuotientCode()
    ensures Compile(Quotient()) == [Lit(5), Lit(1), Lit(2), PlusOp, Lit(3), Lit(4), PlusOp, TimesOp, DivideOp]
  {
    assert Compile(Product()) == [Lit(1), Lit(2), PlusOp, Lit(3), Lit(4), PlusOp, TimesOp];
    assert Compile(Quotient()) == [Lit(5)] + Compile(Product()) + [DivideOp];
  }

  lemma QuotientRendering()
    ensures Render(IntDomain(), Quotient()) == "5÷(1+2)×(3+4)"
  {
    var five := [DigitChar(5)];
    RenderDigit(5);
    ProductRendering();
    ProductCountsAsWrapped();
    RenderWrappedDivisor(Num(5), Product(), five, "(1+2)×(3+4)");
    QuotientText();
  }

  /** A division whose divisor already reads as wrapped is printed without
      new parentheses around the divisor. */
  lemma RenderWrappedDivisor(l: Expr<int>, r: Expr<int>, lt: string, rt: string)
    requires Prec(l) == 0 && Prec(r) != 0 && Wrapped(rt)
    requires Render(IntDomain(), l) == lt && Render(IntDomain(), r) == rt
    ensures Render(IntDomain(), Apply2("÷", 2, Divide, l, r)) == lt + "÷" + rt
  {
  }

  // A string-literal fact kept in its own lemma to keep the solver's work small.
  lemma QuotientText()
    ensures [DigitChar(5)] + "÷" + "(1+2)×(3+4)" == "5÷(1+2)×(3+4)"
  {
  }

  /** ... and `5 1 2 + 3 4 + × ÷` is described as "5÷(1+2)×(3+4)": the
      divisor is not wrapped again, although it needs parentheses. */
  lemma UncheckedDivisorExample()
    ensures Describe(IntDomain(), [Lit(5), Lit(1), Lit(2), PlusOp, Lit(3), Lit(4), PlusOp, TimesOp, DivideOp]).text
            == Some("5÷(1+2)×(3+4)")
  {
    QuotientCode();
    QuotientRendering();
    DescribeTree(Quotient(), [Lit(5), Lit(1), Lit(2), PlusOp, Lit(3), Lit(4), PlusOp, TimesOp, DivideOp],
                 "5÷(1+2)×(3+4)");
  }

  /** `3 4 + 5 6 ×` holds two expressions and is described as "3+4, 5×6". */
  lemma TwoExpressionsExample()
    ensures StackDescription(IntDomain(), [Lit(3), Lit(4), PlusOp, Lit(5), Lit(6), TimesOp]) == "3+4, 5×6"
  {
    RenderDigit(3); RenderDigit(4); RenderDigit(5); RenderDigit(6);
    var a := Plus2(Num(3), Num(4));
    var b := Times2(Num(5), Num(6));
    assert Render(IntDomain(), a) == "3+4";
    assert Render(IntDomain(), b) == "5×6";
    var es := [a, b];
    assert es[..1] == [a];
    assert [a][..0] == [];
    assert CompileAll([a]) == [Lit(3), Lit(4), PlusOp];
    assert CompileAll(es) == [Lit(3), Lit(4), PlusOp, Lit(5), Lit(6), TimesOp];
    assert RenderAll(IntDomain(), [a]) == ["3+4"];
    assert RenderAll(IntDomain(), es) == ["3+4", "5×6"];
    DescriptionOfCompiled(IntDomain(), es);
    JoinTwo("3+4", "5×6", ", ");
  }

  /** The sign operator prints as a bare prefix; the square root prints
      function style. */
  lemma UnaryExamples()
    ensures Describe(IntDomain(), [Lit(5), SignOp]).text == Some("-5")
    ensures Describe(IntDomain(), [Lit(5), RootOp]).text == Some("√(5)")
  {
    RenderDigit(5);
    assert DigitChar(5) == '5';
    assert "-" + "5" == "-5";
    DescribeTree(Apply1("-", -1, Negation, Num(5)), [Lit(5), SignOp], "-" + "5");
    assert "√" + "(" + "5" + ")" == "√(5)";
    DescribeTree(Apply1("√", 0, SquareRoot, Num(5)), [Lit(5), RootOp], "√(5)");
  }

  /** `5 +` lacks its farther operand and is described as "?+5". */
  lemma MissingOperandExample()
    ensures Describe(IntDomain(), [Lit(5), PlusOp]).text == Some("?+5")
  {
    SumOverOneDigit(5);
    assert ['?', '+', DigitChar(5)] == "?+5";
  }

  lemma SumOverOneDigit(n: nat)
    requires n < 10
    ensures Describe(IntDomain(), [Lit(n), PlusOp]).text == Some(['?', '+', DigitChar(n)])
  {
    var digit := [DigitChar(n)];
    RenderDigit(n);
    assert ParenthesizeIf(Render(IntDomain(), Num(n)), Prec(Num(n)) != 0) == digit;
    MissingSecondOperand(IntDomain(), Num(n), "+", 1, Plus);
    assert Compile(Num(n)) + [PlusOp] == [Lit(n), PlusOp];
    assert "?" + "+" + digit == ['?', '+', DigitChar(n)];
  }

  /** `5 0 ÷` reports the division message; `-4 √` the square-root message. */
  lemma ErrorExamples()
    ensures ReportErrors(IntDomain(), map[], [Lit(5), Lit(0), DivideOp]) == DividendMessage
    ensures ReportErrors(IntDomain(), map[], [Lit(-4), RootOp]) == SquareRootMessage
  {
    assert Below([Lit(5), Lit(0), DivideOp]) == [Lit(5), Lit(0)];
    assert Below([Lit(5), Lit(0)]) == [Lit(5)];
    assert Below([Lit(-4), RootOp]) == [Lit(-4)];
  }

  /** `x 1 +` with x unbound reports "op2❓": a missing variable under a
      binary operator shows as a missing operand, never as "(x=❓)". */
  lemma UnboundOperandExample()
    ensures EvaluateAndReportErrors(IntDomain(), map[], [Variable("x", 0), Lit(1), PlusOp]).message
            == Some("op2❓")
  {
    assert Below([Variable("x", 0), Lit(1), PlusOp]) == [Variable("x", 0), Lit(1)];
    assert Below([Variable("x", 0), Lit(1)]) == [Variable("x", 0)];
  }

  /** A session on a new engine: 4, 0, ÷ reports the division message and
      evaluates anyway; undo drops the operator, leaving 0 on top; an
      unknown operator changes nothing. */
  lemma SessionExample()
    ensures var d := IntDomain();
            var s1 := PushOperand(d, Init(d), 4);
            var s2 := PushOperand(d, s1.brain, 0);
            var s3 := PerformOperation(d, s2.brain, "÷");
            && s3.brain.opStack == [Lit(4), Lit(0), DivideOp]
            && s3.result == Some(0)
            && ReportErrorsOf(d, s3.brain) == DividendMessage
            && Undo(d, s3.brain) == Step(s2.brain, Some(0))
            && PerformOperation(d, s3.brain, "mod") == Step(s3.brain, s3.result)
  {
    var d := IntDomain();
    var s1 := PushOperand(d, Init(d), 4);
    var s2 := PushOperand(d, s1.brain, 0);
    assert s2.brain == Init(d).(opStack := [Lit(4), Lit(0)]);
    DivideSession();
    var s3 := PerformOperation(d, s2.brain, "÷");
    UndoAfterPush(d, s2.brain, DivideOp);
    assert "mod" !in s3.brain.knownOps;
  }

  /** The division step of that session, on the stack 4, 0. */
  lemma DivideSession()
    ensures var d := IntDomain();
            var b := Init(d).(opStack := [Lit(4), Lit(0)]);
            var s := PerformOperation(d, b, "÷");
            && s == Step(b.(opStack := [Lit(4), Lit(0), DivideOp]), Some(0))
            && ReportErrors(d, map[], [Lit(4), Lit(0), DivideOp]) == DividendMessage
            && EvaluateTop(d, b) == Some(0)
  {
    var d := IntDomain();
    assert "÷" in KnownOperators(d) && KnownOperators(d)["÷"] == DivideOp;
    assert Below([Lit(4), Lit(0), DivideOp]) == [Lit(4), Lit(0)];
    assert Below([Lit(4), Lit(0)]) == [Lit(4)];
    var b := Init(d).(opStack := [Lit(4), Lit(0)]);
    assert EvaluateTop(d, b) == Some(0);
    assert ReportErrors(d, map[], [Lit(4), Lit(0), DivideOp]) == DividendMessage;
    assert PerformOperation(d, b, "÷") == Step(b.(opStack := [Lit(4), Lit(0), DivideOp]), Some(0));
  }
}

=== FILE: expressions.dfy ===
/** A reference semantics on expression trees.

    `Compile` writes a tree in reverse-Polish order, as a user would key it
    in. `Value` gives the tree its infix meaning (`left − right`,
    `left ÷ right`) and `Render` prints it by the precedence rules, stated on
    the tree's left and right operands. The lemmas show that the stack-based
    evaluator and describer, run on compiled code, agree with these
    definitions and consume exactly that code. */
module Expressions {
  import opened Options
  import opened Numbers
  import opened Text
  import opened Ops
  import opened Evaluator
  import opened Describer

  datatype Expr<N> =
    | Number(value: N)
    | Name(symbol: string)
    | Named(symbol: string, value: N)
    | Apply1(symbol: string, precedence: int, unary: UnaryKind, arg: Expr<N>)
    | Apply2(symbol: string, precedence: int, binary: BinaryKind, left: Expr<N>, right: Expr<N>)

  /** The ops that key in an expression: operands before their operator, the
      left operand first. */
  function Compile<N>(e: Expr<N>): (ops: seq<Op<N>>)
    ensures |ops| >= 1
  {
    match e
    case Number(v) => [Operand(v, 0)]
    case Name(s) => [Variable(s, 0)]
    case Named(s, v) => [Constant(s, v, 0)]
    case Apply1(s, p, k, a) => Compile(a) + [UnaryOperation(s, p, k)]
    case Apply2(s, p, k, l, r) => Compile(l) + Compile(r) + [BinaryOperation(s, p, k)]
  }

  /** Several expressions keyed in one after another. */
  function CompileAll<N>(es: seq<Expr<N>>): (ops: seq<Op<N>>)
    ensures |ops| >= |es|
  {
    if es == [] then [] else CompileAll(es[..|es| - 1]) + Compile(es[|es| - 1])
  }

  /** The infix meaning of a binary operator. Swift's `*` and `+` are handed
      the right operand first, which matters only to a domain whose
      multiplication or addition is not commutative. */
  function Infix<N>(d: Domain<N>, k: BinaryKind, left: N, right: N): N {
    match k
    case Times => d.mul(right, left)
    case Divide => d.div(left, right)
    case Plus => d.add(right, left)
    case Minus => d.sub(left, right)
  }

  function Value<N>(d: Domain<N>, vars: map<string, N>, e: Expr<N>): Option<N> {
    match e
    case Number(v) => Some(v)
    case Name(s) => if s in vars then Some(vars[s]) else None
    case Named(_, v) => Some(v)
    case Apply1(_, _, k, a) =>
      var x := Value(d, vars, a);
      if x.Some? then Some(ApplyUnary(d, k, x.value)) else None
    case Apply2(_, _, k, l, r) =>
      var x := Value(d, vars, l);
      var y := Value(d, vars, r);
      if x.Some? && y.Some? then Some(Infix(d, k, x.value, y.value)) else None
  }

  function Prec<N>(e: Expr<N>): int {
    match e
    case Apply1(_, p, _, _) => p
    case Apply2(_, p, _, _, _) => p
    case _ => 0
  }

  /** The infix text of a tree: the left operand is wrapped when the operator
      binds tighter than it and it is compound; the right operand whenever it
      is compound (its precedence is not 0). */
  function Render<N>(d: Domain<N>, e: Expr<N>): string {
    match e
    case Number(v) => StripZeroFraction(d.show(v))
    case Name(s) => s
    case Named(s, _) => s
    case Apply1(s, p, _, a) => UnaryText(s, p, Render(d, a))
    case Apply2(s, p, _, l, r) =>
      ParenthesizeIf(Render(d, l), p > Prec(l) && Prec(l) != 0) + s
        + ParenthesizeIf(Render(d, r), Prec(r) != 0)
  }

  function RenderAll<N>(d: Domain<N>, es: seq<Expr<N>>): seq<string> {
    if es == [] then [] else RenderAll(d, es[..|es| - 1]) + [Render(d, es[|es| - 1])]
  }

  /** The stack evaluator on compiled code computes the tree's infix value and
      consumes exactly that code; when the value is undefined it fails and
      returns the stack untouched. */
  lemma {:induction false} EvaluateCompiled<N>(d: Domain<N>, vars: map<string, N>, below: seq<Op<N>>, e: Expr<N>)
    ensures Evaluate(d, vars, below + Compile(e))
         == if Value(d, vars, e).Some? then Eval(Value(d, vars, e), below)
            else Eval(None, below + Compile(e))
    decreases e
  {
    match e
    case Number(_) =>
    case Name(_) =>
    case Named(_, _) =>
    case Apply1(s, p, k, a) =>
      var ops := below + Compile(e);
      assert ops == (below + Compile(a)) + [UnaryOperation(s, p, k)];
      assert Below(ops) == below + Compile(a);
      EvaluateCompiled(d, vars, below, a);
    case Apply2(s, p, k, l, r) =>
      EvaluateBinaryCompiled(d, vars, below, s, p, k, l, r);
  }

  lemma {:induction false} EvaluateBinaryCompiled<N>(d: Domain<N>, vars: map<string, N>, below: seq<Op<N>>,
                                                     s: string, p: int, k: BinaryKind, l: Expr<N>, r: Expr<N>)
    ensures (var e := Apply2(s, p, k, l, r);
             Evaluate(d, vars, below + Compile(e))
             == if Value(d, vars, e).Some? then Eval(Value(d, vars, e), below)
                else Eval(None, below + Compile(e)))
    decreases Apply2(s, p, k, l, r), 0
  {
    var e := Apply2(s, p, k, l, r);
    var ops := below + Compile(e);
    var left := below + Compile(l);
    var rest := left + Compile(r);
    assert ops == rest + [BinaryOperation(s, p, k)];
    EvaluateCompiled(d, vars, left, r);
    EvaluateCompiled(d, vars, below, l);
    var x := Value(d, vars, l);
    var y := Value(d, vars, r);
    EvaluateBinaryFromParts(d, vars, below, left, rest, s, p, k, x, y);
    if x.Some? && y.Some? {
      assert ApplyBinary(d, k, y.value, x.value) == Infix(d, k, x.value, y.value);
    }
  }

  /** The stack describer on compiled code prints the tree's rendering,
      reports the tree's precedence and consumes exactly that code. */
  lemma {:induction false} DescribeCompiled<N>(d: Domain<N>, below: seq<Op<N>>, e: Expr<N>)
    ensures Describe(d, below + Compile(e)) == Desc(Some(Render(d, e)), Prec(e), below)
    decreases e
  {
    var ops := below + Compile(e);
    match e
    case Number(_) =>
    case Name(_) =>
    case Named(_, _) =>
    case Apply1(s, p, k, a) =>
      assert ops == (below + Compile(a)) + [UnaryOperation(s, p, k)];
      assert Below(ops) == below + Compile(a);
      DescribeCompiled(d, below, a);
    case Apply2(s, p, k, l, r) =>
      DescribeBinaryCompiled(d, below, s, p, k, l, r);
  }

  lemma {:induction false} DescribeBinaryCompiled<N>(d: Domain<N>, below: seq<Op<N>>,
                                                     s: string, p: int, k: BinaryKind, l: Expr<N>, r: Expr<N>)
    ensures (var e := Apply2(s, p, k, l, r);
             Describe(d, below + Compile(e)) == Desc(Some(Render(d, e)), Prec(e), below))
    decreases Apply2(s, p, k, l, r), 0
  {
    var e := Apply2(s, p, k, l, r);
    var ops := below + Compile(e);
    var left := below + Compile(l);
    var rest := left + Compile(r);
    assert ops == rest + [BinaryOperation(s, p, k)];
    DescribeCompiled(d, left, r);
    DescribeCompiled(d, below, l);
    DescribeBinaryStep(d, rest, s, p, k);
    assert Render(d, e) == BinaryText(s, p, Render(d, r), Prec(r), Render(d, l), Prec(l));
  }

  /** A binary operator over one complete expression renders its missing
      farther operand as "?" and wraps the expression by the nearer-operand
      rule. */
  lemma MissingSecondOperand<N>(d: Domain<N>, e: Expr<N>, s: string, p: int, k: BinaryKind)
    ensures Describe(d, Compile(e) + [BinaryOperation(s, p, k)])
         == Desc(Some("?" + s + ParenthesizeIf(Render(d, e), Prec(e) != 0)), p, [])
  {
    DescribeCompiled(d, [], e);
    assert [] + Compile(e) == Compile(e);
    BinaryOverComplete(d, Compile(e), s, p, k, Render(d, e), Prec(e));
  }

  /** Several expressions keyed in back to back are described one piece per
      expression, in the order they were keyed in. */
  lemma {:induction false} PiecesOfCompiled<N>(d: Domain<N>, es: seq<Expr<N>>)
    ensures Pieces(d, CompileAll(es)) == RenderAll(d, es)
    decreases |es|
  {
    if es != [] {
      var init := es[..|es| - 1];
      DescribeCompiled(d, CompileAll(init), es[|es| - 1]);
      PiecesOfCompiled(d, init);
    }
  }

  /** ... and the engine's description joins those renderings with ", ". */
  lemma DescriptionOfCompiled<N>(d: Domain<N>, es: seq<Expr<N>>)
    ensures StackDescription(d, CompileAll(es)) == Join(RenderAll(d, es), ", ")
  {
    PiecesOfCompiled(d, es);
  }
}

=== FILE: numbers.dfy ===
/** The number domain of the engine.

    The source computes with Swift `Double`s. The model leaves the numbers
    abstract: every arithmetic primitive, the two tests the domain checks use,
    the value of pi and the two text conversions are fields of a `Domain`
    record, so every property proved below holds for any interpretation of
    them, IEEE doubles included. */
module Numbers {
  import opened Options

  datatype Domain<!N> = Domain(
    /** The literal `0` of the unary minus `0 - x`. */
    zero: N,
    /** The value registered for the constant pi. */
    pi: N,
    /** Swift's infix operators, `add(a, b)` standing for `a + b`. */
    add: (N, N) -> N,
    sub: (N, N) -> N,
    mul: (N, N) -> N,
    div: (N, N) -> N,
    sqrt: N -> N,
    sin: N -> N,
    cos: N -> N,
    /** `x == 0`, the division check. */
    isZero: N -> bool,
    /** `x < 0`, the square-root check. */
    isNegative: N -> bool,
    /** The string interpolation `"\(x)"` of a number. */
    show: N -> string,
    /** The number formatter's parse of a token; `None` when the token is not a numeral. */
    parse: string -> Option<N>
  )
}

=== FILE: ops.dfy ===
/** The tokens of the reverse-Polish program and the engine's registries.

    An operator in the source carries two closures, its function and an
    optional error check; here it carries a kind tag instead, and `ApplyUnary`,
    `ApplyBinary`, `UnaryCheck` and `BinaryCheck` give each kind its meaning. */
module Ops {
  import opened Options
  import opened Numbers

  datatype UnaryKind = SquareRoot | Sine | Cosine | Negation

  datatype BinaryKind = Times | Divide | Plus | Minus

  /** One token of the op stack. `precedence` is used only for rendering. */
  datatype Op<N> =
    | Operand(value: N, precedence: int)
    | UnaryOperation(symbol: string, precedence: int, unary: UnaryKind)
    | BinaryOperation(symbol: string, precedence: int, binary: BinaryKind)
    | Variable(symbol: string, precedence: int)
    | Constant(symbol: string, value: N, precedence: int)

  predicate IsOperator<N>(op: Op<N>) {
    op.UnaryOperation? || op.BinaryOperation?
  }

  /** The text of an op: the number's interpolation for an operand, the symbol otherwise. */
  function Description<N>(d: Domain<N>, op: Op<N>): (text: string)
    ensures op.Operand? ==> text == d.show(op.value)
    ensures !op.Operand? ==> text == op.symbol
  {
    if op.Operand? then d.show(op.value) else op.symbol
  }

  /** The top of the stack, the op pushed last. */
  function Top<N>(ops: seq<Op<N>>): Op<N>
    requires ops != []
  {
    ops[|ops| - 1]
  }

  /** The stack with its top removed. */
  function Below<N>(ops: seq<Op<N>>): (rest: seq<Op<N>>)
    requires ops != []
    ensures rest + [Top(ops)] == ops
    ensures |rest| == |ops| - 1
  {
    ops[..|ops| - 1]
  }

  /** A unary operator applied to its operand. */
  function ApplyUnary<N>(d: Domain<N>, k: UnaryKind, x: N): (r: N)
    ensures k == SquareRoot ==> r == d.sqrt(x)
    ensures k == Sine ==> r == d.sin(x)
    ensures k == Cosine ==> r == d.cos(x)
    ensures k == Negation ==> r == d.sub(d.zero, x)
  {
    match k
    case SquareRoot => d.sqrt(x)
    case Sine => d.sin(x)
    case Cosine => d.cos(x)
    case Negation => d.sub(d.zero, x)
  }

  /** A binary operator applied as the source applies it, `f(op1, op2)`, where
      `op1` is the operand nearer the top of the stack. Subtraction and
      division are registered as `op2 - op1` and `op2 / op1`. */
  function ApplyBinary<N>(d: Domain<N>, k: BinaryKind, op1: N, op2: N): (r: N)
    ensures k == Times ==> r == d.mul(op1, op2)
    ensures k == Plus ==> r == d.add(op1, op2)
    ensures k == Minus ==> r == d.sub(op2, op1)
    ensures k == Divide ==> r == d.div(op2, op1)
  {
    match k
    case Times => d.mul(op1, op2)
    case Divide => d.div(op2, op1)
    case Plus => d.add(op1, op2)
    case Minus => d.sub(op2, op1)
  }

  const DividendMessage: string := "❌ dividend"
  const SquareRootMessage: string := "❌ √(n>0)"

  /** The error check of a unary operator; only the square root has one. */
  function UnaryCheck<N>(d: Domain<N>, k: UnaryKind, x: N): (m: Option<string>)
    ensures m.Some? <==> k == SquareRoot && d.isNegative(x)
    ensures m.Some? ==> m.value == SquareRootMessage
  {
    if k == SquareRoot && d.isNegative(x) then Some(SquareRootMessage) else None
  }

  /** The error check of a binary operator; only the division has one, and it
      tests `op1`, the divisor. */
  function BinaryCheck<N>(d: Domain<N>, k: BinaryKind, op1: N, op2: N): (m: Option<string>)
    ensures m.Some? <==> k == Divide && d.isZero(op1)
    ensures m.Some? ==> m.value == DividendMessage
  {
    if k == Divide && d.isZero(op1) then Some(DividendMessage) else None
  }

  // ---------------------------------------------------------------------
  // Registries
  // ---------------------------------------------------------------------

  /** Every entry of a registry is stored under its own description. */
  ghost predicate WellKeyed<N>(d: Domain<N>, m: map<string, Op<N>>) {
    forall s :: s in m ==> Description(d, m[s]) == s
  }

  const OperatorSymbols: set<string> := {"×", "÷", "+", "−", "√", "sin", "cos", "-"}

  /** The registered binary operators; the rest of the registry is unary. */
  const BinarySymbols: set<string> := {"×", "÷", "+", "−"}

  /** The operator registry the initializer builds, each operator learned
      under its own description. */
  function KnownOperators<N>(d: Domain<N>): (m: map<string, Op<N>>)
    ensures m.Keys == OperatorSymbols
    ensures WellKeyed(d, m)
    ensures forall s :: s in m ==> IsOperator(m[s])
    ensures forall s :: s in m ==> (m[s].BinaryOperation? <==> s in BinarySymbols)
    ensures m["×"].binary == Times && m["÷"].binary == Divide
            && m["+"].binary == Plus && m["−"].binary == Minus
    ensures m["√"].UnaryOperation? && m["√"].unary == SquareRoot
            && m["sin"].UnaryOperation? && m["sin"].unary == Sine
            && m["cos"].UnaryOperation? && m["cos"].unary == Cosine
            && m["-"].UnaryOperation? && m["-"].unary == Negation
    ensures m["×"].precedence == 2 && m["÷"].precedence == 2
            && m["+"].precedence == 1 && m["−"].precedence == 1
    ensures m["√"].precedence == 0 && m["sin"].precedence == 0
            && m["cos"].precedence == 0 && m["-"].precedence == -1
  {
    map[
      "×" := BinaryOperation("×", 2, Times),
      "÷" := BinaryOperation("÷", 2, Divide),
      "+" := BinaryOperation("+", 1, Plus),
      "−" := BinaryOperation("−", 1, Minus),
      "√" := UnaryOperation("√", 0, SquareRoot),
      "sin" := UnaryOperation("sin", 0, Sine),
      "cos" := UnaryOperation("cos", 0, Cosine),
      "-" := UnaryOperation("-", -1, Negation)
    ]
  }

  /** The constant registry the initializer builds: pi alone. */
  function KnownConstants<N>(d: Domain<N>): (m: map<string, Op<N>>)
    ensures m.Keys == {"π"}
    ensures WellKeyed(d, m)
    ensures forall s :: s in m ==> m[s].Constant? && m[s].precedence == 0 && m[s].value == d.pi
  {
    map["π" := Constant("π", d.pi, 0)]
  }
}

=== FILE: options.dfy ===
/** The optional values the calculator engine returns where the source returns a Swift optional. */
module Options {

  datatype Option<+T> = None | Some(value: T) {

    /** The wrapped value, or `default` when there is none (Swift's `??`). */
    function GetOr(default: T): T {
      match this
      case Some(v) => v
      case None => default
    }
  }
}

=== FILE: program.dfy ===
/** The `program` property and `descriptionOfProgram`.

    The getter lists the description of every op in stack order. The setter
    rebuilds the stack from such a list, resolving each token on its own:
    a registered operator first, then a numeral, then a registered constant,
    and anything else becomes a variable. */
module Program {
  import opened Options
  import opened Numbers
  import opened Ops
  import opened Describer
  import opened Brain

  /** The setter accepts any property list but acts only on an array of strings. */
  datatype PropertyList = Strings(tokens: seq<string>) | NotStrings

  /** The `program` getter. */
  function GetProgram<N>(d: Domain<N>, b: Brain<N>): (p: PropertyList)
    ensures p.Strings? && |p.tokens| == |b.opStack|
    ensures forall i :: 0 <= i < |b.opStack| ==> p.tokens[i] == Description(d, b.opStack[i])
  {
    Strings(seq(|b.opStack|, i requires 0 <= i < |b.opStack| => Description(d, b.opStack[i])))
  }

  /** The op the setter builds for one token. */
  function ResolveToken<N>(d: Domain<N>, b: Brain<N>, t: string): (op: Op<N>)
    ensures t in b.knownOps ==> op == b.knownOps[t]
    ensures t !in b.knownOps && d.parse(t).Some? ==> op == Operand(d.parse(t).value, 0)
    ensures t !in b.knownOps && d.parse(t).None? && t in b.knownCons ==> op == b.knownCons[t]
    ensures t !in b.knownOps && d.parse(t).None? && t !in b.knownCons ==> op == Variable(t, 0)
  {
    if t in b.knownOps then b.knownOps[t]
    else if d.parse(t).Some? then Operand(d.parse(t).value, 0)
    else if t in b.knownCons then b.knownCons[t]
    else Variable(t, 0)
  }

  /** The `program` setter: one op per token, in order; everything but the
      stack is left alone, and a list that is not of strings changes nothing. */
  function SetProgram<N>(d: Domain<N>, b: Brain<N>, pl: PropertyList): (r: Brain<N>)
    ensures pl.NotStrings? ==> r == b
    ensures r.(opStack := b.opStack) == b
    ensures pl.Strings? ==> |r.opStack| == |pl.tokens|
    ensures pl.Strings? ==> forall i :: 0 <= i < |pl.tokens| ==> r.opStack[i] == ResolveToken(d, b, pl.tokens[i])
  {
    match pl
    case NotStrings => b
    case Strings(ts) =>
      b.(opStack := seq(|ts|, i requires 0 <= i < |ts| => ResolveToken(d, b, ts[i])))
  }

  /** `descriptionOfProgram`: the description a newly built engine gives the program. */
  function DescriptionOfProgram<N>(d: Domain<N>, pl: PropertyList): (text: string)
    ensures pl.NotStrings? || pl.tokens == [] ==> text == ""
  {
    DescriptionOf(d, SetProgram(d, Init(d), pl))
  }

  // ---------------------------------------------------------------------
  // Round trips
  // ---------------------------------------------------------------------

  /** A token the setter turns back into an op with that same description:
      an operator name, a non-numeral, or a numeral the number text
      reproduces exactly. */
  ghost predicate Stable<N>(d: Domain<N>, b: Brain<N>, t: string) {
    t in b.knownOps || d.parse(t).None? || d.show(d.parse(t).value) == t
  }

  /** Resolving a token gives back an op with that description exactly when
      the token is stable, and the op is one the public operations could
      have pushed. */
  lemma ResolveTokenFaithful<N>(d: Domain<N>, b: Brain<N>, t: string)
    requires Valid(d, b)
    ensures Description(d, ResolveToken(d, b, t)) == t <==> Stable(d, b, t)
    ensures Registered(b, ResolveToken(d, b, t))
  {
    if t in b.knownOps {
      assert IsOperator(b.knownOps[t]) && Description(d, b.knownOps[t]) == t;
    } else if d.parse(t).None? && t in b.knownCons {
      assert Description(d, b.knownCons[t]) == t;
    }
  }

  /** Loading a program keeps the engine invariant. */
  lemma SetProgramKeepsValid<N>(d: Domain<N>, b: Brain<N>, pl: PropertyList)
    requires Valid(d, b)
    ensures Valid(d, SetProgram(d, b, pl))
  {
    if pl.Strings? {
      var r := SetProgram(d, b, pl);
      forall i | 0 <= i < |r.opStack|
        ensures Registered(r, r.opStack[i])
      {
        ResolveTokenFaithful(d, b, pl.tokens[i]);
      }
    }
  }

  /** Loading a token list and reading it back gives the same list exactly
      when every token is stable. */
  lemma SetThenGet<N>(d: Domain<N>, b: Brain<N>, ts: seq<string>)
    requires Valid(d, b)
    ensures GetProgram(d, SetProgram(d, b, Strings(ts))).tokens == ts
            <==> forall i :: 0 <= i < |ts| ==> Stable(d, b, ts[i])
  {
    var back := GetProgram(d, SetProgram(d, b, Strings(ts))).tokens;
    forall i | 0 <= i < |ts|
      ensures back[i] == ts[i] <==> Stable(d, b, ts[i])
    {
      ResolveTokenFaithful(d, b, ts[i]);
    }
    if back != ts {
      var i :| 0 <= i < |ts| && back[i] != ts[i];
      assert !Stable(d, b, ts[i]);
    }
  }

  /** get, set, get gives what the first get gave whenever every token of
      the program is stable. */
  lemma GetSetGet<N>(d: Domain<N>, b: Brain<N>)
    requires Valid(d, b)
    requires forall i :: 0 <= i < |b.opStack| ==> Stable(d, b, Description(d, b.opStack[i]))
    ensures GetProgram(d, SetProgram(d, b, GetProgram(d, b))) == GetProgram(d, b)
  {
    var p := GetProgram(d, b);
    SetThenGet(d, b, p.tokens);
  }

  /** An op whose description survives the trip through the setter with its
      rendering intact: a number whose text the parser reads back to a number
      with the same text, a leaf whose name is neither an operator name nor a
      numeral, or an operator. */
  ghost predicate PortableOp<N>(d: Domain<N>, b: Brain<N>, op: Op<N>) {
    if op.Operand? then
      var t := d.show(op.value);
      t !in b.knownOps && d.parse(t).Some? && d.show(d.parse(t).value) == t
    else if IsOperator(op) then true
    else op.symbol !in b.knownOps && d.parse(op.symbol).None?
  }

  ghost predicate Portable<N>(d: Domain<N>, b: Brain<N>) {
    forall i :: 0 <= i < |b.opStack| ==> PortableOp(d, b, b.opStack[i])
  }

  /** A portable program survives get, set, get. */
  lemma PortableRoundTrip<N>(d: Domain<N>, b: Brain<N>)
    requires Valid(d, b) && Portable(d, b)
    ensures GetProgram(d, SetProgram(d, b, GetProgram(d, b))) == GetProgram(d, b)
  {
    forall i | 0 <= i < |b.opStack|
      ensures Stable(d, b, Description(d, b.opStack[i]))
    {
      assert PortableOp(d, b, b.opStack[i]);
      assert Registered(b, b.opStack[i]);
    }
    GetSetGet(d, b);
  }

  /** Handing a portable program to a newly built engine reproduces the
      description the original engine shows. */
  lemma ProgramCarriesDescription<N>(d: Domain<N>, b: Brain<N>)
    requires Valid(d, b) && Portable(d, b)
    requires b.knownOps == KnownOperators(d) && b.knownCons == KnownConstants(d)
    ensures DescriptionOfProgram(d, GetProgram(d, b)) == DescriptionOf(d, b)
  {
    var loaded := SetProgram(d, Init(d), GetProgram(d, b));
    forall i | 0 <= i < |b.opStack|
      ensures KeyOf(d, b.opStack[i]) == KeyOf(d, loaded.opStack[i])
    {
      var op := b.opStack[i];
      assert PortableOp(d, b, op) && Registered(b, op);
      assert loaded.opStack[i] == ResolveToken(d, Init(d), Description(d, op));
    }
    assert SameKeys(d, b.opStack, loaded.opStack);
    PiecesRespectKeys(d, b.opStack, loaded.opStack);
  }
}

=== FILE: text.dfy ===
/** The string helpers the engine relies on (`hasPrefix`, `hasSuffix`, joining). */
module Text {

  predicate HasPrefix(s: string, p: string) {
    |p| <= |s| && s[..|p|] == p
  }

  predicate HasSuffix(s: string, p: string) {
    |p| <= |s| && s[|s| - |p|..] == p
  }

  /** `componentsJoinedByString`: the pieces in order, `sep` between neighbours. */
  function Join(pieces: seq<string>, sep: string): (r: string)
    ensures pieces == [] ==> r == ""
    ensures |pieces| == 1 ==> r == pieces[0]
    ensures |pieces| >= 1 ==> HasPrefix(r, pieces[0])
  {
    if |pieces| == 0 then ""
    else if |pieces| == 1 then pieces[0]
    else pieces[0] + sep + Join(pieces[1..], sep)
  }

  /** Joining two pieces puts exactly one separator between them. */
  lemma JoinTwo(a: string, b: string, sep: string)
    ensures Join([a, b], sep) == a + sep + b
  {
    assert [a, b][1..] == [b];
  }
}
